=== FILE: README.md ===
# PDBx/mmCIF containers, modelled in Dafny

This project models the container layer of the PDBx/mmCIF reader and writer in
mdtraj, `mdtraj/formats/pdbx/PdbxContainers.py`. It covers four parts.

- **CifName** splits a CIF data name `_category.attribute` into its category
  part and its attribute part.
- **ContainerBase** is a data block. It holds named objects (data categories)
  in a catalog keyed by name, plus the list of their names in insertion
  order. Its operations are exists, getObj, append, replace, rename and
  remove.
- **DataCategory** is one category: a table with a list of attribute
  (column) names, a case-insensitive catalog of those names, and a list of
  rows. It models:
  - adding a column, with or without padding the existing rows;
  - reading a row, padding it, or removing it;
  - reading, storing and replacing cell values;
  - renaming a column.
- **The value formatter** decides how a cell is written in CIF:
  - bare;
  - between double or single quotes;
  - as a semicolon text field;
  - or as one of the null markers "." and "?".

  It also reports the data type it chose. The category's column summary
  (`getFormatTypeList`) takes the widest data type over a sample of rows.

Every operation is a pure function or method. It returns the new state
instead of changing an object in place. A Python exception that escapes to
the caller is an `Err` of the `Result` type, named after the exception.
Where the source swallows an exception, the model returns the state as it
was when the exception was raised.

Cell values are `Value = Null | Str(s) | Int(n)`. These are Python's `None`,
a `str` and an `int`.

The modules are:
- `common.dfy`: Option, Result, `list.index`, negative indexing.
- `cif_name.dfy`: CifName.
- `container_base.dfy`: ContainerBase.
- `cif_lexical.dfy`: the regular expressions as predicates.
- `value_format.dfy`: the formatter, the quoting forms and a reader for the
  written text.
- `data_category.dfy`: the category.
- `format_type_list.dfy`: the column summary.

The formatter's output has to be read back by a reader, so `ValueFormat`
contains a small one, `ReadToken`. It is a simplified reader that applies
only the delimiter rules of CIF to one written value:
- a text field ends at the first line that starts with ";";
- a quoted string ends at the matching quote;
- a bare token ends at whitespace.

It does not apply CIF's other lexical rules, as "## Left out" says. With it,
the round-trip property of the quoting forms can be stated exactly.
`ValueFormat.ReadBackExactly` says that the written text of a string reads
back as that same string if and only if:
- the string is non-empty;
- it does not end with a line break;
- it has no line that starts with ";".

## Model

| member | source | states |
|---|---|---|
| CifName.CategoryPart | mdtraj/formats/pdbx/PdbxContainers.py:62-86 | the result has no dot and is the longest dot-free prefix of the name after one leading underscore is dropped |
| CifName.AttributePart | mdtraj/formats/pdbx/PdbxContainers.py:89-107 | None exactly when the name has no dot; otherwise everything after the first dot |
| CifName.SplitItemName | mdtraj/formats/pdbx/PdbxContainers.py:62-107 | splitting `_c.a` gives back category `c` and attribute `a` whenever `c` has no dot |
| CifName.JoinParts | mdtraj/formats/pdbx/PdbxContainers.py:62-107 | conversely, a name with a leading underscore and a dot is rebuilt from its two parts |
| ContainerBase.Exists | mdtraj/formats/pdbx/PdbxContainers.py:173-177 | true exactly for the names held in the catalog |
| ContainerBase.GetObj | mdtraj/formats/pdbx/PdbxContainers.py:179-183 | the object filed under the name, or None exactly when the name is not held |
| ContainerBase.Append | mdtraj/formats/pdbx/PdbxContainers.py:188-202 | an unnamed object changes nothing; a new name is filed and listed last; a known name only has its object overwritten and keeps its place |
| ContainerBase.Replace | mdtraj/formats/pdbx/PdbxContainers.py:204-214 | overwrites only an object whose name is already held; the name list never changes |
| ContainerBase.Rename | mdtraj/formats/pdbx/PdbxContainers.py:228-251 | true exactly when the old name is listed and held; the list entry is replaced in place; the renamed object is filed under the new name and still under the old one; all other entries are untouched |
| ContainerBase.Remove | mdtraj/formats/pdbx/PdbxContainers.py:253-278 | true exactly when the name is held and listed; the key leaves the catalog and the first occurrence leaves the list, the other names keeping their order; a key that is not listed is dropped but reported as False |
| ContainerBase.EmptyConsistent | mdtraj/formats/pdbx/PdbxContainers.py:120-127 | a new container is consistent: list and catalog agree, with no duplicates |
| ContainerBase.AppendKeepsInvariants | mdtraj/formats/pdbx/PdbxContainers.py:188-202 | append never lists a name twice and keeps list and catalog in agreement |
| ContainerBase.ReplaceKeepsInvariants | mdtraj/formats/pdbx/PdbxContainers.py:204-214 | replace keeps both container invariants |
| ContainerBase.RemoveKeepsInvariants | mdtraj/formats/pdbx/PdbxContainers.py:253-278 | remove keeps both invariants; on a consistent container it succeeds exactly for held names, and the name is gone from the list afterwards |
| ContainerBase.RenameKeepsCovered | mdtraj/formats/pdbx/PdbxContainers.py:228-251 | renaming to a name not yet listed keeps the list free of duplicates and every listed name in the catalog |
| ContainerBase.RenameLeavesOldKey | mdtraj/formats/pdbx/PdbxContainers.py:228-251 | after a successful rename the old name is unlisted yet still held, so the container is no longer consistent |
| ContainerBase.RemoveAfterRenameRestores | mdtraj/formats/pdbx/PdbxContainers.py:228-278 | removing the old name after such a rename reports False, yet it restores consistency and keeps the new name |
| CifLexical.NumberTokenPlain | mdtraj/formats/pdbx/PdbxContainers.py:438-441 | an integer or float token is non-empty, has no whitespace or quote, and does not start with "_" |
| CifLexical.IntToString | mdtraj/formats/pdbx/PdbxContainers.py:816-817 | `str(n)` of an int is a digit string, with a "-" in front when negative |
| CifLexical.NatToStringValue | mdtraj/formats/pdbx/PdbxContainers.py:816-817 | the digits written for a natural number read back as that number |
| CifLexical.IntToStringValue | mdtraj/formats/pdbx/PdbxContainers.py:816-817 | the text `str(n)` of any int reads back as `n`: a "-" exactly when negative, then digits whose value is `|n|` |
| ValueFormat.MaxType | mdtraj/formats/pdbx/PdbxContainers.py:443-452 | the larger of two data types in the fixed order of the data type list |
| ValueFormat.Quoted | mdtraj/formats/pdbx/PdbxContainers.py:940-952 | the pieces join to the value between two quote characters, single or double |
| ValueFormat.QuotedReadBack | mdtraj/formats/pdbx/PdbxContainers.py:940-952 | text between two quotes reads back as the value whenever the value does not contain that quote |
| ValueFormat.SemicolonQuoted | mdtraj/formats/pdbx/PdbxContainers.py:954-969 | the pieces join to "\n;" + value (one final line break dropped) + "\n;\n", which reads back as that value when no inner line starts with ";" |
| ValueFormat.TextFieldExact | mdtraj/formats/pdbx/PdbxContainers.py:954-969 | a text field reads back as exactly its value if and only if the value neither ends with a line break nor has a line starting with ";" |
| ValueFormat.PlainText | mdtraj/formats/pdbx/PdbxContainers.py:831-836 | a non-empty string without whitespace or quotes is written as itself, unless it starts with "_", in which case it is double-quoted as an item name |
| ValueFormat.QuoteText | mdtraj/formats/pdbx/PdbxContainers.py:841-878 | a one-line string with whitespace or quotes is double-quoted only if it has no double quote and single-quoted only if it has no single quote, holding the string verbatim between the quotes; otherwise it becomes a text field |
| ValueFormat.FormatText | mdtraj/formats/pdbx/PdbxContainers.py:823-878 | for a non-numeric string: bare types write the string (or "." for ""); the item-name and quoted types hold the string verbatim without its own delimiter; a text field is chosen only for strings with whitespace or quotes; only a text field may hold a line break |
| ValueFormat.FormatPdbx | mdtraj/formats/pdbx/PdbxContainers.py:797-878 | None writes "?"; an int `n` writes `str(n)` as DT_INTEGER; "" writes "."; a bare type writes one non-empty token without whitespace or quote, equal to the string; each quoted form holds the string verbatim, and the string never contains the closing delimiter |
| ValueFormat.ReadBackInt | mdtraj/formats/pdbx/PdbxContainers.py:816-818 | an int is written as one bare token that reads back as `str(n)`, whose sign and digits give back `n` |
| ValueFormat.FormatDecisionOrder | mdtraj/formats/pdbx/PdbxContainers.py:815-878 | the order of the decision: integer, float, null markers, bare or item name, text field for line breaks, then double, single or text field quoting in the default mode |
| ValueFormat.ReadBackExactly | mdtraj/formats/pdbx/PdbxContainers.py:797-969 | read back by the model's simplified reader, the written text of a string gives the string if and only if it is non-empty, does not end with a line break, and has no line starting with ";" |
| ValueFormat.ReadBackBare | mdtraj/formats/pdbx/PdbxContainers.py:823-836 | the same equivalence for the null markers and bare types |
| ValueFormat.ReadBackQuoted | mdtraj/formats/pdbx/PdbxContainers.py:841-878 | the same equivalence for the quoted forms |
| ValueFormat.TextDataTypeAgrees | mdtraj/formats/pdbx/PdbxContainers.py:883-938 | on non-numeric strings the classifier and the formatter agree, except that one may say double-quoted where the other says single-quoted |
| ValueFormat.DataTypePdbx | mdtraj/formats/pdbx/PdbxContainers.py:883-938 | the corrected classifier (whole-string number tests): its data type equals the formatter's up to the double/single swap, and always has the same format type |
| ValueFormat.FormatPdbxAsWritten | mdtraj/formats/pdbx/PdbxContainers.py:815-821 | the formatter with `re.search` for numbers agrees with the corrected one on every value except a string ending in a line break |
| ValueFormat.NumberWithNewlineWrittenBare | mdtraj/formats/pdbx/PdbxContainers.py:815-821 | "12\n" is written bare as an integer, so its output holds whitespace and reads back as "12"; the corrected formatter writes a text field |
| ValueFormat.DataTypePdbxAsWritten | mdtraj/formats/pdbx/PdbxContainers.py:899-905 | the classifier with `re.search` for numbers agrees with the corrected one except on strings ending in a line break, and always gives the format type of the formatter as written |
| ValueFormat.NumberWithNewlineClassifiedInteger | mdtraj/formats/pdbx/PdbxContainers.py:899-902 | as written, "12\n" is classified DT_INTEGER; the corrected classifier gives a text field |
| DataCategory.CatalogOf | mdtraj/formats/pdbx/PdbxContainers.py:376-381 | every catalog key is the lower-cased form of its value, which is a column name; every column name's lower-cased form is a key; when several columns agree up to case, the key holds the last of them |
| DataCategory.NewCategory | mdtraj/formats/pdbx/PdbxContainers.py:356-420 | a new category is fully indexed (coherent catalog, every column reachable, column count up to date), its catalog is CatalogOf of the columns, the current row is 0, there is no current attribute, and embedded quoting is not avoided |
| DataCategory.AppendAttribute | mdtraj/formats/pdbx/PdbxContainers.py:594-606 | a name equal to a column up to case respells, in place, the first column spelled exactly as its catalog entry; otherwise it is appended; the catalog maps its lower case to it; the column count is updated; coherence is kept; nothing else changes |
| DataCategory.AppendAttributeIndexed | mdtraj/formats/pdbx/PdbxContainers.py:594-606 | on an indexed category, a column is respelled exactly when one matches up to case, and the category stays indexed |
| DataCategory.AppendAttributeIdempotent | mdtraj/formats/pdbx/PdbxContainers.py:594-606 | appending the same name twice equals appending it once |
| DataCategory.AppendAttributeExtendRows | mdtraj/formats/pdbx/PdbxContainers.py:608-623 | the same column change as AppendAttribute; a new column pads every row with one "?", so rows with one cell per column keep that shape |
| DataCategory.GetRow | mdtraj/formats/pdbx/PdbxContainers.py:512-516 | the row at a Python index (negative from the end), or [] exactly when the index is out of range |
| DataCategory.RemoveRow | mdtraj/formats/pdbx/PdbxContainers.py:518-530 | succeeds exactly for 0 <= i < row count; deletes that row only, later rows moving up; a current row past the new end becomes exactly the new last row, otherwise it is kept; nothing else changes; a failed call changes nothing |
| DataCategory.RemoveRowShifts | mdtraj/formats/pdbx/PdbxContainers.py:518-530 | after removing row i, rows before i keep their index and later rows move up by one |
| DataCategory.GetFullRow | mdtraj/formats/pdbx/PdbxContainers.py:532-552 | the row extended with "?" to the column count, with the padding stored in the row; out of range gives a row of "?" and no change |
| DataCategory.GetFullRowIdempotent | mdtraj/formats/pdbx/PdbxContainers.py:532-552 | asking for the same full row twice pads nothing more |
| DataCategory.GetAttributeIndex | mdtraj/formats/pdbx/PdbxContainers.py:569-573 | -1 exactly when the name is not a column (case matters); otherwise the position of its first occurrence |
| DataCategory.GetItemNameList | mdtraj/formats/pdbx/PdbxContainers.py:584-588 | one CIF data name per column, in column order |
| DataCategory.ItemNamesSplit | mdtraj/formats/pdbx/PdbxContainers.py:584-588 | each data name splits back, by CifName, into the category name and its column |
| DataCategory.GetValue | mdtraj/formats/pdbx/PdbxContainers.py:625-640 | succeeds exactly when the attribute (or current attribute) is set, the row index (or current row) is in range, the name is a column and the row has a cell for it, and then returns that cell; the failure is ValueError exactly when the row exists but the name is not a column, and IndexError otherwise |
| DataCategory.SetValue | mdtraj/formats/pdbx/PdbxContainers.py:642-682 | with no attribute nothing changes; otherwise rows are added up to the index and every added row other than the target is a row of None; only the rows change, and every row but the target is kept as grown (all of them when the column is unknown or the index is before the first row); the target row reaches length 2 * ind (1 for column 0) when too short, its new cells other than the stored one are None and its old ones are kept; whenever the name is a column and the index is not before the first row, GetValue afterwards returns the stored value |
| DataCategory.SetValueFrame | mdtraj/formats/pdbx/PdbxContainers.py:642-682 | every existing cell other than the target keeps its value, including when the column is unknown or the index is before the first row and nothing is stored |
| DataCategory.SetValueAsWritten | mdtraj/formats/pdbx/PdbxContainers.py:642-682 | the repository's row extension; columns are untouched |
| DataCategory.StoreCellAsWritten | mdtraj/formats/pdbx/PdbxContainers.py:663-666 | the store with the `2 * ind - ll` extension equals the corrected store except on column 0 of an empty row, which stays empty |
| DataCategory.SetValueAsWrittenDropsValue | mdtraj/formats/pdbx/PdbxContainers.py:663-665 | one column and one empty row: the repository's version leaves the row empty, and GetValue raises IndexError; the corrected version stores the value |
| DataCategory.SetValueAsWrittenElsewhere | mdtraj/formats/pdbx/PdbxContainers.py:663-665 | the two versions agree except on column 0 of an empty row |
| DataCategory.ReplaceInColumn | mdtraj/formats/pdbx/PdbxContainers.py:688-693 | every cell of the column equal to the old value becomes the new value, other cells are unchanged, and the count is the number of matching rows |
| DataCategory.ReplaceValue | mdtraj/formats/pdbx/PdbxContainers.py:684-693 | an unknown column gives 0 and no change; IndexError exactly when some row lacks the column; otherwise the matches are replaced and counted, only the rows change, other columns are untouched, and no old value is left when old and new differ |
| DataCategory.RenameAttribute | mdtraj/formats/pdbx/PdbxContainers.py:736-759 | an unlisted name gives False and no change; KeyError exactly when the listed name's lower case has no catalog entry; otherwise the result is True, the first occurrence is renamed in place, the catalog entry moves, only the column list and catalog change, and coherence is kept |
| DataCategory.RenameAttributeKeepsValues | mdtraj/formats/pdbx/PdbxContainers.py:736-759 | after renaming to an unused name, every cell read under the new name equals the one read under the old name |
| FormatTypeList.Stride | mdtraj/formats/pdbx/PdbxContainers.py:1013 | `s[::k]`: element j is `s[j*k]`, and the elements continue until the next index passes the end |
| FormatTypeList.Sample | mdtraj/formats/pdbx/PdbxContainers.py:1013 | the sampled rows are rows of the category |
| FormatTypeList.SampleOne | mdtraj/formats/pdbx/PdbxContainers.py:1010-1013 | the default step samples every row, in order |
| FormatTypeList.ColumnTypeIsMax | mdtraj/formats/pdbx/PdbxContainers.py:1013-1021 | a column's data type ranks at least as high as every cell's, and is the null type or the type of some cell |
| FormatTypeList.ColumnTypeCongruent | mdtraj/formats/pdbx/PdbxContainers.py:1013-1021 | two classifiers that agree on every cell of a column give the column the same data type |
| FormatTypeList.ColumnTypeAsWrittenAgrees | mdtraj/formats/pdbx/PdbxContainers.py:1013-1021 | with the classifier as written, a column gets the same data type as with the corrected one unless a cell is a string ending in a line break |
| FormatTypeList.NumberWithNewlineColumn | mdtraj/formats/pdbx/PdbxContainers.py:1013-1021 | a column holding "12\n" is DT_INTEGER with the classifier as written and a text-field column with the corrected one |
| FormatTypeList.ColumnTypes | mdtraj/formats/pdbx/PdbxContainers.py:1012-1021 | the loop over rows and columns computes each column's type; it fails exactly when a row is too short |
| FormatTypeList.GetFormatTypeList | mdtraj/formats/pdbx/PdbxContainers.py:1010-1032 | it fails for step 0 or a short sampled row; otherwise each column gets the highest-ranked data type over its sampled cells (the null type when no row is sampled), under the corrected classifier, and the matching format type |

## Left out

- Output to the log stream and `traceback.print_exc` are left out. They
  report the errors that setValue, getFormatTypeList and the formatter
  swallow. appendAttributeExtendRows also writes an informational message
  when it respells an existing column.
- Objects are shared between Python lists, and the model does not follow
  that sharing:
  - getRow and getFullRow return the stored row itself;
  - ContainerBase.rename files the same object under two keys.

  The model copies values instead. Rename's double filing is still
  modelled.
- Partial updates before an escaping exception are left out. They are the
  rows already changed by replaceValue before a short row raises
  IndexError, and the list entry already renamed by renameAttribute before
  KeyError. The `Err` result carries no state.
- DataCategory.AppendAttribute: the model requires a coherent catalog. The
  source then never raises. Every modelled operation keeps the catalog
  coherent, but a caller of the source could break it by editing the list
  returned by getAttributeList directly.
- `str.lower` is modelled on ASCII letters only. Non-ASCII case mapping is
  not part of this model.
- Python floats and bools as cell values are left out. Their `str()` form is
  floating-point formatting. Strings that look like floats are modelled.
- Values of other types are left out. Objects other than `None`, `str` and
  `int` in a row would reach `str()` or a regex on a non-string.
- The formatter's `except Exception` branch is left out. It returns None
  after printing a traceback. Among the modelled values, only an int too
  long for `str()` reaches it (see ValueFormat.FormatPdbx below).
- ValueFormat.FormatPdbx: an int is always written as `str(n)`. Python 3.11
  and later, and the security releases of 3.7 to 3.10, refuse `str()` of an
  int with more than 4300 digits by default. The source's formatter then
  takes its `except Exception` branch and returns None. That limit depends
  on interpreter settings and is not modelled.
- For None the formatter returns the bare string "?" rather than a list.
  Joined, it gives the same text, and the model returns the list ["?"].
- Simple accessors and setters are left out, since each only reads or
  writes a field:
  - getType, setType, getName, setName and getObjNameList;
  - getRowList, getRowCount, getAttributeList, getAttributeCount,
    getAttributeListWithOrder, hasAttribute and getIndex;
  - setRowList and get.

  getIndex is the same function as GetAttributeIndex.
- DataCategory `append(row)` is left out. It only adds a row at the end.
- invokeAttributeMethod, invokeCategoryMethod and invokeDataBlockMethod are
  left out because they `exec` code held in a dictionary.
- printIt and dumpIt are left out because they are output only.
- `__getitem__` is left out.
- getValueFormatted, getValueFormattedByIndex and replaceSubstring are left
  out. The first two look up a cell and return the formatter's text for it,
  which is ValueFormat.Render of the cell. replaceSubstring applies
  `str.replace` to every cell of a column.
- getAttributeValueMaxLengthList, getAttributeLengthMaximumList and
  getFormatTypeListX are left out. They are unused length and type helpers.
- DefinitionContainer and DataContainer are left out. Besides fixing the
  container type, DefinitionContainer adds isCategory and isAttribute, which
  are Exists on the names "category" and "item", and DataContainer adds a
  global flag with a setter and a getter.
- ValueFormat.ReadBackExactly: the reader it is stated against is
  simplified. It ignores these rules of CIF 1.1:
  - "#" starting a comment;
  - the reserved words `loop_`, `stop_`, `global_`, `data_…` and `save_…`;
  - bare values that start with "$", "[" or "]";
  - a carriage return ending a line.

  The formatter writes strings such as "#x" and "loop_" bare, and a CIF
  reader would not read those back as the string. The property holds only
  for the reader as modelled.
- FormatTypeList.GetFormatTypeList: the column types use the corrected
  classifier, whose number tests match the whole string, rather than the
  source's `re.search` tests. A column with a cell like
  "12\n" is therefore typed as a text field where the source gives
  DT_INTEGER. FormatTypeList.ColumnTypeAsWrittenAgrees proves the two agree
  on every column without a string ending in a line break.
- FormatTypeList.Sample: the contract says only that the sampled rows are
  rows of the category. Stride states the exact positions for a positive
  step. A negative step is the reversed rows strided.

## Findings

| source | as written | input that shows it | evidently intended | confidence | as-written member | corrected member |
|---|---|---|---|---|---|---|
| mdtraj/formats/pdbx/PdbxContainers.py:816-821 | numbers are recognised with `re.search` on `^...$`; `$` also matches before a final line break | the string "12\n" is written bare as DT_INTEGER, and the token reads back as "12" | a value is a number only if the whole string matches | not executed | ValueFormat.FormatPdbxAsWritten, ValueFormat.NumberWithNewlineWrittenBare | ValueFormat.FormatPdbx, ValueFormat.ReadBackExactly |
| mdtraj/formats/pdbx/PdbxContainers.py:899-905 | the classifier, which getFormatTypeList calls for every sampled cell, recognises numbers with the same `re.search` on `^...$` | the string "12\n" is classified DT_INTEGER, so its column becomes DT_INTEGER with format type FT_NUMBER, though the formatter writes no valid number for it | a value is a number only if the whole string matches, as in the corrected formatter | not executed | ValueFormat.DataTypePdbxAsWritten, ValueFormat.NumberWithNewlineClassifiedInteger, FormatTypeList.NumberWithNewlineColumn | ValueFormat.DataTypePdbx, FormatTypeList.ColumnTypeAsWrittenAgrees, FormatTypeList.GetFormatTypeList |
| mdtraj/formats/pdbx/PdbxContainers.py:663-665 | a row shorter than the column is extended by `2 * ind - ll` cells | column 0 of an empty row: nothing is added, the store raises IndexError, and the value is silently dropped | extend the row until column `ind` exists | not executed | DataCategory.SetValueAsWritten, DataCategory.SetValueAsWrittenDropsValue | DataCategory.SetValue |

=== FILE: cif_lexical.dfy ===
/** Character classes and token shapes used by the PDBx value formatter.
    The formatter's regular expressions are written here as predicates over
    strings; the whitespace class is Python's `\s` on `str` patterns. */
module CifLexical {

  /** Python's `\s` on str: the characters for which `str.isspace()` holds. */
  predicate IsSpace(c: char)
  {
    || c == ' '
    || '\t' <= c <= '\r'
    || '\U{1c}' <= c <= '\U{1f}'
    || c == '\U{85}' || c == '\U{a0}' || c == '\U{1680}'
    || '\U{2000}' <= c <= '\U{200a}'
    || c == '\U{2028}' || c == '\U{2029}' || c == '\U{202f}'
    || c == '\U{205f}' || c == '\U{3000}'
  }

  /** `[\n\r]` */
  predicate IsNewline(c: char)
  {
    c == '\n' || c == '\r'
  }

  predicate IsQuote(c: char)
  {
    c == '\'' || c == '"'
  }

  predicate IsDigit(c: char)
  {
    '0' <= c <= '9'
  }

  /** `[\s'"]` occurs somewhere in `s`. */
  predicate HasSpaceOrQuote(s: string)
  {
    exists i :: 0 <= i < |s| && (IsSpace(s[i]) || IsQuote(s[i]))
  }

  predicate HasSpace(s: string)
  {
    exists i :: 0 <= i < |s| && IsSpace(s[i])
  }

  /** `[\n\r]` occurs somewhere in `s`. */
  predicate HasNewline(s: string)
  {
    exists i :: 0 <= i < |s| && IsNewline(s[i])
  }

  /** `q` followed by whitespace or whitespace followed by `q` occurs in `s`
      (the patterns `('\s)|(\s')` and `("\s)|(\s")`). */
  predicate QuoteNextToSpace(s: string, q: char)
  {
    exists i :: 0 <= i < |s| - 1 &&
      ((s[i] == q && IsSpace(s[i + 1])) || (IsSpace(s[i]) && s[i + 1] == q))
  }

  predicate AllDigits(s: string)
  {
    forall i :: 0 <= i < |s| ==> IsDigit(s[i])
  }

  /** `[0-9]+` matching all of `s`. */
  predicate Digits(s: string)
  {
    |s| > 0 && AllDigits(s)
  }

  /** `^[0-9]+$` matching all of `s`. */
  predicate IsIntToken(s: string)
  {
    Digits(s)
  }

  /** The length of the longest prefix of `t` made of digits and dots. */
  function MantissaLength(t: string): (n: nat)
    ensures n <= |t|
    ensures forall i :: 0 <= i < n ==> IsDigit(t[i]) || t[i] == '.'
    ensures n < |t| ==> !(IsDigit(t[n]) || t[n] == '.')
  {
    if |t| == 0 || !(IsDigit(t[0]) || t[0] == '.') then 0
    else 1 + MantissaLength(t[1..])
  }

  /** `([0-9]+)[.]?|([0-9]*[.][0-9]+)`: digits with at most one dot, and at
      least one digit. */
  predicate Mantissa(u: string)
  {
    || Digits(u)
    || (|u| >= 2 && exists p :: 0 <= p < |u| && u[p] == '.' && AllDigits(u[..p]) && AllDigits(u[p + 1..]))
  }

  /** `([eE][+-]?[0-9]+)?` */
  predicate Exponent(v: string)
  {
    || |v| == 0
    || (|v| >= 2 && (v[0] == 'e' || v[0] == 'E') &&
        (Digits(v[1..]) || ((v[1] == '+' || v[1] == '-') && Digits(v[2..]))))
  }

  /** `([(][0-9]+[)])?([eE][+-]?[0-9]+)?` */
  predicate NumberSuffix(v: string)
  {
    || Exponent(v)
    || (|v| > 0 && v[0] == '(' &&
        exists q :: 1 < q < |v| && v[q] == ')' && Digits(v[1..q]) && Exponent(v[q + 1..]))
  }

  /** `^-?(([0-9]+)[.]?|([0-9]*[.][0-9]+))([(][0-9]+[)])?([eE][+-]?[0-9]+)?$`
      matching all of `s`. A mantissa is made of digits and dots and what
      may follow it starts with `(`, `e` or `E`, so the mantissa is the
      longest digit-and-dot prefix after the optional sign. */
  predicate IsFloatToken(s: string)
  {
    var t := if |s| > 0 && s[0] == '-' then s[1..] else s;
    var m := MantissaLength(t);
    Mantissa(t[..m]) && NumberSuffix(t[m..])
  }

  /** `re.search` with a pattern anchored `^...$` and no MULTILINE flag: `$`
      matches at the end of the string and also just before a final
      newline, so the pattern accepts `s` or `s` minus one trailing "\n". */
  predicate SearchAnchored(s: string, full: string -> bool)
  {
    full(s) || (|s| > 0 && s[|s| - 1] == '\n' && full(s[..|s| - 1]))
  }

  /** The characters a numeric token can contain. */
  predicate NumberChar(c: char)
  {
    IsDigit(c) || c == '.' || c == '-' || c == '+' || c == '(' || c == ')' || c == 'e' || c == 'E'
  }

  lemma {:induction false} ExponentChars(v: string)
    requires Exponent(v)
    ensures forall i :: 0 <= i < |v| ==> NumberChar(v[i])
  {
    if |v| > 0 {
      forall i | 0 <= i < |v| ensures NumberChar(v[i]) {
        if i >= 2 {
          if Digits(v[1..]) {
            assert v[i] == v[1..][i - 1];
          } else {
            assert v[i] == v[2..][i - 2];
          }
        } else if i == 1 && Digits(v[1..]) {
          assert v[1] == v[1..][0];
        }
      }
    }
  }

  lemma {:induction false} SuffixChars(v: string)
    requires NumberSuffix(v)
    ensures forall i :: 0 <= i < |v| ==> NumberChar(v[i])
  {
    if Exponent(v) {
      ExponentChars(v);
    } else {
      var q :| 1 < q < |v| && v[q] == ')' && Digits(v[1..q]) && Exponent(v[q + 1..]);
      var w := v[q + 1..];
      ExponentChars(w);
      forall i | 0 <= i < |v| ensures NumberChar(v[i]) {
        if 1 <= i < q {
          assert v[i] == v[1..q][i - 1];
        } else if i > q {
          assert v[i] == w[i - q - 1];
        }
      }
    }
  }

  lemma {:induction false} UnsignedChars(t: string)
    requires Mantissa(t[..MantissaLength(t)]) && NumberSuffix(t[MantissaLength(t)..])
    ensures forall i :: 0 <= i < |t| ==> NumberChar(t[i])
  {
    var m := MantissaLength(t);
    var v := t[m..];
    SuffixChars(v);
    forall i | 0 <= i < |t| ensures NumberChar(t[i]) {
      if i >= m {
        assert t[i] == v[i - m];
      }
    }
  }

  /** A float token is made of digits, signs, dots, parentheses and exponent
      letters only. */
  lemma {:induction false} FloatTokenChars(s: string)
    requires IsFloatToken(s)
    ensures forall i :: 0 <= i < |s| ==> NumberChar(s[i])
  {
    var t := if |s| > 0 && s[0] == '-' then s[1..] else s;
    UnsignedChars(t);
    forall i | 0 <= i < |s| ensures NumberChar(s[i]) {
      if s != t && i > 0 {
        assert s[i] == t[i - 1];
      }
    }
  }

  /** Numeric tokens contain neither whitespace nor quotes. */
  lemma NumberTokenPlain(s: string)
    requires IsIntToken(s) || IsFloatToken(s)
    ensures !HasSpaceOrQuote(s)
    ensures |s| > 0 && s[0] != '_'
  {
    if IsFloatToken(s) {
      FloatTokenChars(s);
      var t := if |s| > 0 && s[0] == '-' then s[1..] else s;
      var m := MantissaLength(t);
      assert Mantissa(t[..m]);
      assert m > 0;
    }
  }

  /** `str(n)` for a Python int: decimal digits, with a leading "-" when
      negative. */
  function IntToString(n: int): (r: string)
    ensures n >= 0 ==> IsIntToken(r)
    ensures n < 0 ==> |r| > 1 && r[0] == '-' && IsIntToken(r[1..])
  {
    if n < 0 then "-" + NatToString(-n) else NatToString(n)
  }

  /** The decimal text of an int has no whitespace or quotes. */
  lemma {:induction false} IntStringPlain(n: int)
    ensures |IntToString(n)| > 0 && !HasSpaceOrQuote(IntToString(n))
  {
    var r := IntToString(n);
    if n < 0 {
      forall i | 0 <= i < |r| ensures !IsSpace(r[i]) && !IsQuote(r[i]) {
        if i > 0 {
          assert r[i] == r[1..][i - 1];
        }
      }
    }
  }

  function DigitChar(d: nat): (c: char)
    requires d < 10
    ensures IsDigit(c)
  {
    "0123456789"[d]
  }

  function NatToString(n: nat): (r: string)
    ensures IsIntToken(r)
    ensures n < 10 ==> |r| == 1
    ensures n >= 10 ==> |r| >= 2 && r[0] != '0'
  {
    if n < 10 then [DigitChar(n)]
    else NatToString(n / 10) + [DigitChar(n % 10)]
  }

  /** The value of a string of decimal digits. */
  function DigitsValue(s: string): (v: nat)
    requires AllDigits(s)
  {
    if |s| == 0 then 0
    else DigitsValue(s[..|s| - 1]) * 10 + ((s[|s| - 1] as int) - ('0' as int))
  }

  /** Reading back the digits written for a natural number gives that number. */
  lemma {:induction false} NatToStringValue(n: nat)
    ensures DigitsValue(NatToString(n)) == n
  {
    var r := NatToString(n);
    if n >= 10 {
      NatToStringValue(n / 10);
      assert r[..|r| - 1] == NatToString(n / 10);
    }
  }

  /** The text `str(n)` reads back as `n`: the digits after an optional
      "-" have the value `|n|`, and the "-" is there exactly when `n` is
      negative. */
  lemma {:induction false} IntToStringValue(n: int)
    ensures var r := IntToString(n);
            && (n >= 0 ==> IsIntToken(r) && DigitsValue(r) == n)
            && (n < 0 ==> |r| > 1 && r[0] == '-' && IsIntToken(r[1..]) && DigitsValue(r[1..]) == -n)
  {
    if n < 0 {
      NatToStringValue(-n);
      assert IntToString(n)[1..] == NatToString(-n);
    } else {
      NatToStringValue(n);
    }
  }
}

=== FILE: cif_name.dfy ===
/** CIF data names have the form `_category.attribute`. This module splits a
    data name into its two parts, the way the PDBx containers do. */
module CifName {
  import opened Common

  /** `s.find(c)`: the first position of `c` in `s`, or -1. */
  function Find(s: string, c: char): (r: int)
    ensures -1 <= r < |s|
    ensures r == -1 <==> c !in s
    ensures r >= 0 ==> s[r] == c && c !in s[..r]
  {
    match IndexOf(s, c)
    case None => -1
    case Some(i) => i
  }

  /** The name without one leading underscore. */
  function StripUnderscore(name: string): (r: string)
    ensures name == r || name == "_" + r
  {
    if |name| > 0 && name[0] == '_' then name[1..] else name
  }

  /** The category part: after one leading underscore, up to the first dot
      (the whole rest when there is no dot). */
  function CategoryPart(name: string): (r: string)
    ensures '.' !in r
    ensures var t := StripUnderscore(name);
            |r| <= |t| && r == t[..|r|] && (|r| == |t| || t[|r|] == '.')
  {
    var t := StripUnderscore(name);
    var i := Find(t, '.');
    if i == -1 then t else t[..i]
  }

  /** The attribute part: everything after the first dot, or None when the
      name has no dot. A leading underscore is not stripped here. */
  function AttributePart(name: string): (r: Option<string>)
    ensures r.None? <==> '.' !in name
    ensures r.Some? ==>
              var p := |name| - |r.value| - 1;
              0 <= p && name[p] == '.' && '.' !in name[..p] && name[p + 1..] == r.value
  {
    var i := Find(name, '.');
    if i == -1 then None else Some(name[i + 1..])
  }

  /** The data name of attribute `a` of category `c`. */
  function ItemName(c: string, a: string): string
  {
    "_" + c + "." + a
  }

  /** Splitting a data name built from a dot-free category and any attribute
      gives back the category and the attribute. */
  lemma {:induction false} SplitItemName(c: string, a: string)
    requires '.' !in c
    ensures CategoryPart(ItemName(c, a)) == c
    ensures AttributePart(ItemName(c, a)) == Some(a)
  {
    var n := ItemName(c, a);
    assert n[1..] == c + "." + a;
    assert StripUnderscore(n) == c + "." + a;
    var t := c + "." + a;
    assert t[|c|] == '.' && t[..|c|] == c;
    assert Find(t, '.') == |c|;
    assert n[1 + |c|] == '.' && n[..1 + |c|] == "_" + c;
    assert Find(n, '.') == 1 + |c|;
    assert n[1 + |c| + 1..] == a;
  }

  /** Conversely, a data name that starts with an underscore and has a dot is
      rebuilt from its two parts. */
  lemma {:induction false} JoinParts(name: string)
    requires |name| > 0 && name[0] == '_' && '.' in name
    ensures AttributePart(name).Some?
    ensures ItemName(CategoryPart(name), AttributePart(name).value) == name
  {
    var i := Find(name, '.');
    assert i >= 1;
    var t := name[1..];
    assert t[i - 1] == '.';
    assert name[..i] == "_" + t[..i - 1];
    assert '.' !in t[..i - 1];
    assert Find(t, '.') == i - 1;
    assert CategoryPart(name) == t[..i - 1];
    assert name == name[..i] + "." + name[i + 1..];
  }
}

=== FILE: common.dfy ===
/** Shared vocabulary of the PDBx container model: optional values, the
    Python exceptions that escape from container methods, and Python's list
    lookups (`list.index`, subscription with negative indices, `del`). */
module Common {

  datatype Option<+T> = None | Some(value: T)

  /** The exceptions a container method can let escape to its caller. */
  datatype PyError = IndexError | KeyError | ValueError | UnboundLocalError

  datatype Result<+T> = Ok(value: T) | Err(error: PyError)

  /** `s.index(x)`: the position of the first occurrence of `x`, or None
      where Python raises ValueError. */
  function IndexOf<T(==)>(s: seq<T>, x: T): (r: Option<nat>)
    ensures r.None? <==> x !in s
    ensures r.Some? ==> r.value < |s| && s[r.value] == x && x !in s[..r.value]
  {
    if |s| == 0 then None
    else if s[0] == x then Some(0)
    else
      match IndexOf(s[1..], x)
      case None => None
      case Some(i) =>
        assert s[..i + 1] == [s[0]] + s[1..][..i];
        Some(i + 1)
  }

  /** Subscription `s[i]` on a Python list of length `n`: a negative `i`
      counts from the end; None where Python raises IndexError. */
  function PyIndex(i: int, n: nat): (r: Option<nat>)
    ensures r.Some? <==> 0 <= i + n && i < n
    ensures r.Some? ==> r.value < n && r.value % n == i % n
  {
    if 0 <= i < n then Some(i)
    else if 0 <= i + n && i < 0 then Some(i + n)
    else None
  }

  /** `del s[i]`. */
  function RemoveAt<T>(s: seq<T>, i: nat): (r: seq<T>)
    requires i < |s|
    ensures |r| == |s| - 1
    ensures forall j :: 0 <= j < i ==> r[j] == s[j]
    ensures forall j :: i <= j < |r| ==> r[j] == s[j + 1]
  {
    s[..i] + s[i + 1..]
  }

  /** `[x] * n`. */
  function Repeat<T>(x: T, n: nat): (r: seq<T>)
    ensures |r| == n
    ensures forall j :: 0 <= j < n ==> r[j] == x
  {
    seq(n, _ => x)
  }

  ghost predicate NoDup<T>(s: seq<T>)
  {
    forall i, j :: 0 <= i < j < |s| ==> s[i] != s[j]
  }

  /** Deleting position `i` of a list keeps it free of duplicates, removes
      the element that was there, and keeps every other element. */
  lemma {:induction false} RemoveAtElements<T>(s: seq<T>, i: nat)
    requires i < |s| && NoDup(s)
    ensures NoDup(RemoveAt(s, i))
    ensures forall x :: x in RemoveAt(s, i) <==> x in s && x != s[i]
  {
    var r := RemoveAt(s, i);
    forall x | x in r ensures x in s && x != s[i] {
      var k :| 0 <= k < |r| && r[k] == x;
      var k' := if k < i then k else k + 1;
      assert r[k] == s[k'];
    }
    forall x | x in s && x != s[i] ensures x in r {
      var k :| 0 <= k < |s| && s[k] == x;
      if k < i {
        assert r[k] == x;
      } else {
        assert r[k - 1] == x;
      }
    }
    forall a, b | 0 <= a < b < |r| ensures r[a] != r[b] {
      var a' := if a < i then a else a + 1;
      var b' := if b < i then b else b + 1;
      assert r[a] == s[a'] && r[b] == s[b'];
    }
  }
}

=== FILE: container_base.dfy ===
/** The common part of PDBx data and definition containers: a catalog of
    named objects (data categories) together with the list of their names in
    insertion order. */
module ContainerBase {
  import opened Common

  /** An object held by a container; only its name matters to the container.
      A name of None stands for an object whose `getName()` is None. */
  datatype Named<T> = Named(name: Option<string>, content: T)

  /** `names` keeps the insertion order, `catalog` maps a name to its object. */
  datatype Container<T> = Container(
    name: string,
    names: seq<string>,
    catalog: map<string, Named<T>>)

  function Empty<T>(name: string): Container<T>
  {
    Container(name, [], map[])
  }

  /** The name list and the catalog describe the same objects, each filed
      under its own name, and no name is listed twice. */
  ghost predicate Consistent<T>(c: Container<T>)
  {
    && NoDup(c.names)
    && (forall n :: n in c.names <==> n in c.catalog)
    && (forall n :: n in c.catalog ==> c.catalog[n].name == Some(n))
  }

  /** The weaker invariant every operation keeps: the name list is free of
      duplicates and every listed name is in the catalog. The catalog may
      hold more keys than the list (a rename leaves its old key behind). */
  ghost predicate Covered<T>(c: Container<T>)
  {
    && NoDup(c.names)
    && (forall n :: n in c.names ==> n in c.catalog)
  }

  function Exists<T>(c: Container<T>, n: string): (r: bool)
    ensures r <==> n in c.catalog
  {
    n in c.catalog
  }

  function GetObj<T>(c: Container<T>, n: string): (r: Option<Named<T>>)
    ensures r.Some? <==> Exists(c, n)
    ensures r.Some? ==> r.value == c.catalog[n]
  {
    if n in c.catalog then Some(c.catalog[n]) else None
  }

  /** Adds an object under its own name. A new name goes to the end of the
      list; a known name only has its object overwritten; an object without
      a name is ignored. */
  function Append<T>(c: Container<T>, obj: Named<T>): (r: Container<T>)
    ensures obj.name.None? ==> r == c
    ensures obj.name.Some? ==>
              var n := obj.name.value;
              && r.catalog == c.catalog[n := obj]
              && (n in c.catalog ==> r.names == c.names)
              && (n !in c.catalog ==> r.names == c.names + [n])
    ensures r.name == c.name
  {
    match obj.name
    case None => c
    case Some(n) =>
      var names := if n in c.catalog then c.names else c.names + [n];
      c.(names := names, catalog := c.catalog[n := obj])
  }

  /** Overwrites the object filed under the object's own name, if there is
      one; otherwise nothing changes. */
  function Replace<T>(c: Container<T>, obj: Named<T>): (r: Container<T>)
    ensures r.names == c.names && r.name == c.name
    ensures obj.name.Some? && obj.name.value in c.catalog ==>
              r.catalog == c.catalog[obj.name.value := obj]
    ensures !(obj.name.Some? && obj.name.value in c.catalog) ==> r == c
  {
    if obj.name.Some? && obj.name.value in c.catalog then
      c.(catalog := c.catalog[obj.name.value := obj])
    else c
  }

  /** Renames the object listed as `cur`. The list entry is changed in
      place; the object, renamed, is filed under `newName` as well, and the
      old key stays in the catalog, aliasing the same renamed object. When
      `cur` is listed but not in the catalog the list is already changed
      when the lookup fails, and False is returned. */
  function Rename<T>(c: Container<T>, cur: string, newName: string): (r: (Container<T>, bool))
    ensures r.1 <==> cur in c.names && cur in c.catalog
    ensures cur !in c.names ==> r.0 == c
    ensures cur in c.names ==>
              var i := IndexOf(c.names, cur).value;
              && r.0.names == c.names[i := newName]
              && (cur !in c.catalog ==> r.0.catalog == c.catalog)
              && (cur in c.catalog ==>
                    var o := c.catalog[cur].(name := Some(newName));
                    && r.0.catalog.Keys == c.catalog.Keys + {newName}
                    && r.0.catalog[newName] == o && r.0.catalog[cur] == o
                    && forall n :: n in c.catalog && n != cur && n != newName ==>
                                     r.0.catalog[n] == c.catalog[n])
    ensures r.0.name == c.name
  {
    match IndexOf(c.names, cur)
    case None => (c, false)
    case Some(i) =>
      var names := c.names[i := newName];
      if cur !in c.catalog then (c.(names := names), false)
      else
        var o := c.catalog[cur].(name := Some(newName));
        (c.(names := names, catalog := c.catalog[newName := o][cur := o]), true)
  }

  /** Removes the object named `cur` from the catalog and from the list.
      A catalog key that is not listed (left behind by Rename) is dropped
      from the catalog but False is returned. */
  function Remove<T>(c: Container<T>, cur: string): (r: (Container<T>, bool))
    ensures r.1 <==> cur in c.catalog && cur in c.names
    ensures cur !in c.catalog ==> r.0 == c
    ensures cur in c.catalog ==> r.0.catalog == c.catalog - {cur}
    ensures cur in c.catalog && cur !in c.names ==> r.0.names == c.names
    ensures r.1 ==> |r.0.names| == |c.names| - 1 &&
                    multiset(r.0.names) == multiset(c.names) - multiset{cur}
    ensures r.1 ==> var i := IndexOf(c.names, cur).value;
                    r.0.names == c.names[..i] + c.names[i + 1..]
    ensures r.0.name == c.name
  {
    if cur !in c.catalog then (c, false)
    else
      var catalog := c.catalog - {cur};
      match IndexOf(c.names, cur)
      case None => (c.(catalog := catalog), false)
      case Some(i) =>
        assert c.names == c.names[..i] + [cur] + c.names[i + 1..];
        (c.(names := RemoveAt(c.names, i), catalog := catalog), true)
  }

  lemma EmptyConsistent<T>(name: string)
    ensures Consistent(Empty<T>(name))
  {
  }

  /** Append never lists a name twice and keeps the container consistent. */
  lemma {:induction false} AppendKeepsInvariants<T>(c: Container<T>, obj: Named<T>)
    ensures Covered(c) ==> Covered(Append(c, obj))
    ensures Consistent(c) ==> Consistent(Append(c, obj))
  {
    if obj.name.Some? {
      var n := obj.name.value;
      var r := Append(c, obj);
      if Covered(c) && n !in c.catalog {
        assert n !in c.names;
        forall i, j | 0 <= i < j < |r.names| ensures r.names[i] != r.names[j] {
          if j == |c.names| {
            assert r.names[i] == c.names[i];
          }
        }
      }
    }
  }

  lemma {:induction false} ReplaceKeepsInvariants<T>(c: Container<T>, obj: Named<T>)
    ensures Covered(c) ==> Covered(Replace(c, obj))
    ensures Consistent(c) ==> Consistent(Replace(c, obj))
  {
  }

  /** On a consistent container Remove succeeds exactly for the names it
      holds, deletes that name from both the list and the catalog, and keeps
      the container consistent. */
  lemma {:induction false} RemoveKeepsInvariants<T>(c: Container<T>, cur: string)
    ensures Covered(c) ==> Covered(Remove(c, cur).0)
    ensures Consistent(c) ==> Consistent(Remove(c, cur).0)
    ensures Consistent(c) ==> (Remove(c, cur).1 <==> Exists(c, cur))
    ensures Consistent(c) ==> cur !in Remove(c, cur).0.names
  {
    if cur in c.catalog && Covered(c) {
      match IndexOf(c.names, cur)
      case None =>
      case Some(i) => RemoveAtElements(c.names, i);
    }
  }

  /** A rename to a name not yet listed keeps the list free of duplicates
      and every listed name in the catalog. */
  lemma {:induction false} RenameKeepsCovered<T>(c: Container<T>, cur: string, newName: string)
    requires Covered(c)
    requires newName !in c.names
    ensures Covered(Rename(c, cur, newName).0)
  {
    if cur in c.names {
      var i := IndexOf(c.names, cur).value;
      var r := Rename(c, cur, newName).0;
      forall a, b | 0 <= a < b < |r.names| ensures r.names[a] != r.names[b] {
        if a != i && b != i {
          assert r.names[a] == c.names[a] && r.names[b] == c.names[b];
        } else if a == i {
          assert r.names[b] == c.names[b];
        } else {
          assert r.names[a] == c.names[a];
        }
      }
    }
  }

  /** A successful rename to a new name breaks consistency: the old name is
      no longer listed but is still a catalog key. */
  lemma {:induction false} RenameLeavesOldKey<T>(c: Container<T>, cur: string, newName: string)
    requires Consistent(c)
    requires cur in c.names && newName != cur && newName !in c.names
    ensures Rename(c, cur, newName).1
    ensures Exists(Rename(c, cur, newName).0, cur)
    ensures cur !in Rename(c, cur, newName).0.names
    ensures !Consistent(Rename(c, cur, newName).0)
  {
    var i := IndexOf(c.names, cur).value;
    var r := Rename(c, cur, newName).0;
    forall k | 0 <= k < |r.names| ensures r.names[k] != cur {
      if k != i {
        assert r.names[k] == c.names[k];
        assert c.names[k] != c.names[i];
      }
    }
  }

  /** After such a rename, removing the old name reports False, yet it drops
      the stale key and so restores consistency. */
  lemma {:induction false} RemoveAfterRenameRestores<T>(c: Container<T>, cur: string, newName: string)
    requires Consistent(c)
    requires cur in c.names && newName != cur && newName !in c.names
    ensures var r := Remove(Rename(c, cur, newName).0, cur);
            !r.1 && Consistent(r.0) && cur !in r.0.catalog && Exists(r.0, newName)
  {
    RenameLeavesOldKey(c, cur, newName);
    var i := IndexOf(c.names, cur).value;
    var r1 := Rename(c, cur, newName).0;
    var r := Remove(r1, cur).0;
    assert r.names == c.names[i := newName];
    RenameKeepsCovered(c, cur, newName);
    forall n | n in r.catalog ensures n in r.names && r.catalog[n].name == Some(n) {
      if n != newName {
        assert n in c.catalog && n != cur;
        var k :| 0 <= k < |c.names| && c.names[k] == n;
        assert k != i;
        assert r.names[k] == n;
      } else {
        assert r.names[i] == newName;
      }
    }
  }
}

=== FILE: data_category.dfy ===
/** A PDBx data category: a table with a list of attribute (column) names,
    a case-insensitive catalog of those names, and a list of rows of cell
    values. Every operation returns the updated category instead of
    changing it in place. */
module DataCategory {
  import opened Common
  import opened ValueFormat
  import CifName

  function LowerChar(c: char): char
  {
    if 'A' <= c <= 'Z' then (c as int + 32) as char else c
  }

  /** `str.lower()`, on the ASCII letters. */
  function Lower(s: string): (r: string)
    ensures |r| == |s|
    ensures forall i :: 0 <= i < |s| ==> r[i] == LowerChar(s[i])
  {
    seq(|s|, i requires 0 <= i < |s| => LowerChar(s[i]))
  }

  /** `attributes` are the column names in order; `catalog` maps a
      lower-cased name to its spelling; `numAttributes` is the column count
      as last recorded; `currentRow` and `currentAttribute` are the defaults
      of GetValue and SetValue. */
  datatype Category = Category(
    name: string,
    attributes: seq<string>,
    catalog: map<string, string>,
    numAttributes: nat,
    rows: seq<seq<Value>>,
    currentRow: int,
    currentAttribute: Option<string>,
    avoidEmbeddedQuoting: bool)

  /** The catalog built from a list of names: each lower-cased name maps to
      the last name in the list that has it. */
  function CatalogOf(attrs: seq<string>): (m: map<string, string>)
    ensures forall k :: k in m ==> Lower(m[k]) == k && m[k] in attrs
    ensures forall a :: a in attrs ==> Lower(a) in m
    ensures forall j :: 0 <= j < |attrs| && (forall j' :: j < j' < |attrs| ==> Lower(attrs[j']) != Lower(attrs[j])) ==>
              m[Lower(attrs[j])] == attrs[j]
  {
    if |attrs| == 0 then map[]
    else
      var init := attrs[..|attrs| - 1];
      var last := attrs[|attrs| - 1];
      assert attrs == init + [last];
      CatalogOf(init)[Lower(last) := last]
  }

  /** Every catalog entry is the lower-cased form of its value, and that
      value is one of the column names. Every operation keeps this. */
  ghost predicate Coherent(c: Category)
  {
    forall k :: k in c.catalog ==> Lower(c.catalog[k]) == k && c.catalog[k] in c.attributes
  }

  /** As built: coherent, every column reachable through the catalog, and
      the recorded column count up to date. */
  ghost predicate Indexed(c: Category)
  {
    && Coherent(c)
    && c.numAttributes == |c.attributes|
    && (forall a :: a in c.attributes ==> Lower(a) in c.catalog)
  }

  /** Every row has one cell per column. */
  ghost predicate Rectangular(c: Category)
  {
    forall k :: 0 <= k < |c.rows| ==> |c.rows[k]| == |c.attributes|
  }

  function NewCategory(name: string, attributes: seq<string>, rows: seq<seq<Value>>): (c: Category)
    ensures Indexed(c)
    ensures c.attributes == attributes && c.rows == rows && c.name == name
    ensures c.catalog == CatalogOf(attributes)
    ensures c.currentRow == 0 && c.currentAttribute == None && !c.avoidEmbeddedQuoting
  {
    Category(name, attributes, CatalogOf(attributes), |attributes|, rows, 0, None, false)
  }

  /** Adds a column. A name that matches an existing column without regard
      to case respells that column in place; a new name is appended. */
  function AppendAttribute(c: Category, a: string): (r: Category)
    requires Coherent(c)
    ensures Coherent(r)
    ensures r.rows == c.rows && r.name == c.name
    ensures r.numAttributes == |r.attributes|
    ensures r.catalog == c.catalog[Lower(a) := a]
    ensures r == c.(attributes := r.attributes, catalog := r.catalog, numAttributes := r.numAttributes)
    ensures Lower(a) in c.catalog ==>
              exists i :: && 0 <= i < |c.attributes| && c.attributes[i] == c.catalog[Lower(a)]
                          && c.catalog[Lower(a)] !in c.attributes[..i]
                          && r.attributes == c.attributes[i := a]
    ensures Lower(a) in c.catalog ==>
              && |r.attributes| == |c.attributes| && a in r.attributes
              && (forall j :: 0 <= j < |c.attributes| && r.attributes[j] != c.attributes[j] ==>
                                r.attributes[j] == a && Lower(c.attributes[j]) == Lower(a))
              && (forall j, k :: 0 <= j < k < |c.attributes| ==>
                                   r.attributes[j] == c.attributes[j] || r.attributes[k] == c.attributes[k])
    ensures Lower(a) !in c.catalog ==> r.attributes == c.attributes + [a]
  {
    var lc := Lower(a);
    if lc in c.catalog then
      var i := IndexOf(c.attributes, c.catalog[lc]).value;
      var attrs := c.attributes[i := a];
      RespellCoherent(c, i, a);
      c.(attributes := attrs, catalog := c.catalog[lc := a], numAttributes := |attrs|)
    else
      var attrs := c.attributes + [a];
      c.(attributes := attrs, catalog := c.catalog[lc := a], numAttributes := |attrs|)
  }

  /** Respelling the column a catalog entry points at keeps the catalog
      coherent. */
  lemma {:induction false} RespellCoherent(c: Category, i: nat, a: string)
    requires Coherent(c) && Lower(a) in c.catalog
    requires i < |c.attributes| && c.attributes[i] == c.catalog[Lower(a)]
    ensures Coherent(c.(attributes := c.attributes[i := a], catalog := c.catalog[Lower(a) := a]))
    ensures a in c.attributes[i := a]
  {
    var attrs := c.attributes[i := a];
    assert attrs[i] == a;
    forall k | k in c.catalog && k != Lower(a) ensures c.catalog[k] in attrs {
      var j :| 0 <= j < |c.attributes| && c.attributes[j] == c.catalog[k];
      assert j != i;
      assert attrs[j] == c.catalog[k];
    }
  }

  /** On a category as built, a column is respelled exactly when some
      column has the same name up to case, and the category stays as
      built. */
  lemma {:induction false} AppendAttributeIndexed(c: Category, a: string)
    requires Indexed(c)
    ensures Lower(a) in c.catalog <==> exists x :: x in c.attributes && Lower(x) == Lower(a)
    ensures Indexed(AppendAttribute(c, a))
  {
    var r := AppendAttribute(c, a);
    if Lower(a) in c.catalog {
      assert c.catalog[Lower(a)] in c.attributes;
      forall x | x in r.attributes ensures Lower(x) in r.catalog {
        var j :| 0 <= j < |r.attributes| && r.attributes[j] == x;
        if r.attributes[j] != c.attributes[j] {
          assert x == a;
        } else {
          assert c.attributes[j] in c.attributes;
        }
      }
    }
  }

  /** Appending the same name twice is the same as appending it once. */
  lemma {:induction false} AppendAttributeIdempotent(c: Category, a: string)
    requires Coherent(c)
    ensures AppendAttribute(AppendAttribute(c, a), a) == AppendAttribute(c, a)
  {
    var r := AppendAttribute(c, a);
    var i := IndexOf(r.attributes, a).value;
    assert r.attributes[i := a] == r.attributes;
  }

  /** Adds a column like AppendAttribute and, when the column is new, pads
      every existing row with one "?" for it. */
  function AppendAttributeExtendRows(c: Category, a: string): (r: Category)
    requires Coherent(c)
    ensures r.(rows := c.rows) == AppendAttribute(c, a)
    ensures Lower(a) in c.catalog ==> r.rows == c.rows
    ensures Lower(a) !in c.catalog ==>
              |r.rows| == |c.rows| &&
              forall k :: 0 <= k < |c.rows| ==> r.rows[k] == c.rows[k] + [Str("?")]
    ensures Rectangular(c) ==> Rectangular(r)
  {
    var r := AppendAttribute(c, a);
    if Lower(a) in c.catalog then r
    else r.(rows := seq(|c.rows|, k requires 0 <= k < |c.rows| => c.rows[k] + [Str("?")]))
  }

  /** The row at a Python index (negative counts from the end), or the
      empty row when the index is out of range. */
  function GetRow(c: Category, i: int): (r: seq<Value>)
    ensures PyIndex(i, |c.rows|).None? ==> r == []
    ensures PyIndex(i, |c.rows|).Some? ==> r == c.rows[PyIndex(i, |c.rows|).value]
  {
    match PyIndex(i, |c.rows|)
    case None => []
    case Some(k) => c.rows[k]
  }

  /** Deletes row `i` when 0 <= i < the row count, and then moves the
      current row back to the last row if it is past the end. A negative or
      too large index changes nothing and gives False. */
  function RemoveRow(c: Category, i: int): (r: (Category, bool))
    ensures r.1 <==> 0 <= i < |c.rows|
    ensures !r.1 ==> r.0 == c
    ensures r.1 ==>
              && |r.0.rows| == |c.rows| - 1
              && (forall k :: 0 <= k < i ==> r.0.rows[k] == c.rows[k])
              && (forall k :: i <= k < |r.0.rows| ==> r.0.rows[k] == c.rows[k + 1])
              && (c.currentRow >= |r.0.rows| ==> r.0.currentRow == |r.0.rows| - 1)
              && (c.currentRow < |r.0.rows| ==> r.0.currentRow == c.currentRow)
              && r.0 == c.(rows := r.0.rows, currentRow := r.0.currentRow)
  {
    if 0 <= i < |c.rows| then
      var rows := RemoveAt(c.rows, i);
      var cur := if c.currentRow >= |rows| then |rows| - 1 else c.currentRow;
      (c.(rows := rows, currentRow := cur), true)
    else (c, false)
  }

  /** After deleting row `i`, the rows before it keep their index and the
      rows after it move up by one. */
  lemma {:induction false} RemoveRowShifts(c: Category, i: int, j: int)
    requires 0 <= i < |c.rows| && 0 <= j < |c.rows| - 1
    ensures GetRow(RemoveRow(c, i).0, j) == GetRow(c, if j < i then j else j + 1)
  {
  }

  /** The row at a Python index padded with "?" up to the recorded column
      count; the padding is stored in the row. For an index out of range,
      a row of "?" only, and no change. */
  function GetFullRow(c: Category, i: int): (r: (Category, seq<Value>))
    ensures PyIndex(i, |c.rows|).None? ==>
              r.0 == c && |r.1| == c.numAttributes &&
              forall j :: 0 <= j < |r.1| ==> r.1[j] == Str("?")
    ensures PyIndex(i, |c.rows|).Some? ==>
              var k := PyIndex(i, |c.rows|).value;
              var row := c.rows[k];
              && |r.1| == (if |row| < c.numAttributes then c.numAttributes else |row|)
              && r.1[..|row|] == row
              && (forall j :: |row| <= j < |r.1| ==> r.1[j] == Str("?"))
              && r.0 == c.(rows := c.rows[k := r.1])
  {
    match PyIndex(i, |c.rows|)
    case None => (c, Repeat(Str("?"), c.numAttributes))
    case Some(k) =>
      var row := c.rows[k];
      if |row| < c.numAttributes then
        var full := row + Repeat(Str("?"), c.numAttributes - |row|);
        (c.(rows := c.rows[k := full]), full)
      else (c, row)
  }

  /** Asking for the same full row again pads nothing more. */
  lemma {:induction false} GetFullRowIdempotent(c: Category, i: int)
    ensures GetFullRow(GetFullRow(c, i).0, i) == (GetFullRow(c, i).0, GetFullRow(c, i).1)
  {
  }

  /** The position of the first column with exactly this name (case
      matters), or -1. */
  function GetAttributeIndex(c: Category, a: string): (r: int)
    ensures r == -1 <==> a !in c.attributes
    ensures r >= 0 ==> r < |c.attributes| && c.attributes[r] == a && a !in c.attributes[..r]
  {
    match IndexOf(c.attributes, a)
    case None => -1
    case Some(i) => i
  }

  /** The CIF data names of the columns, `_category.attribute`, in column
      order. */
  function GetItemNameList(c: Category): (r: seq<string>)
    ensures |r| == |c.attributes|
    ensures forall j :: 0 <= j < |r| ==> r[j] == CifName.ItemName(c.name, c.attributes[j])
  {
    seq(|c.attributes|, j requires 0 <= j < |c.attributes| => "_" + c.name + "." + c.attributes[j])
  }

  /** When the category name has no dot, each data name splits back into
      the category name and its column name. */
  lemma {:induction false} ItemNamesSplit(c: Category, j: int)
    requires '.' !in c.name && 0 <= j < |c.attributes|
    ensures CifName.CategoryPart(GetItemNameList(c)[j]) == c.name
    ensures CifName.AttributePart(GetItemNameList(c)[j]) == Some(c.attributes[j])
  {
    CifName.SplitItemName(c.name, c.attributes[j]);
  }

  /** The cell in the named column (default: the current attribute) of the
      row at a Python index (default: the current row). A missing attribute
      or row, or a row too short for the column, raises IndexError; a name
      that is not a column raises ValueError. The row is looked up first. */
  function GetValue(c: Category, attribute: Option<string>, rowIndex: Option<int>): (r: Result<Value>)
    ensures r.Ok? <==>
              var a := if attribute.Some? then attribute else c.currentAttribute;
              var i := if rowIndex.Some? then rowIndex.value else c.currentRow;
              && a.Some? && PyIndex(i, |c.rows|).Some? && a.value in c.attributes
              && IndexOf(c.attributes, a.value).value < |c.rows[PyIndex(i, |c.rows|).value]|
    ensures var a := if attribute.Some? then attribute else c.currentAttribute;
            var i := if rowIndex.Some? then rowIndex.value else c.currentRow;
            r.Ok? ==> r.value == c.rows[PyIndex(i, |c.rows|).value][IndexOf(c.attributes, a.value).value]
    ensures var a := if attribute.Some? then attribute else c.currentAttribute;
            var i := if rowIndex.Some? then rowIndex.value else c.currentRow;
            r.Err? ==>
              (r.error == ValueError <==>
                 a.Some? && PyIndex(i, |c.rows|).Some? && a.value !in c.attributes)
    ensures r.Err? ==> r.error == ValueError || r.error == IndexError
  {
    var a := if attribute.Some? then attribute else c.currentAttribute;
    var i := if rowIndex.Some? then rowIndex.value else c.currentRow;
    if a.None? then Err(IndexError)
    else
      match PyIndex(i, |c.rows|)
      case None => Err(IndexError)
      case Some(k) =>
        match IndexOf(c.attributes, a.value)
        case None => Err(ValueError)
        case Some(j) => if j < |c.rows[k]| then Ok(c.rows[k][j]) else Err(IndexError)
  }

  /** A row of None, one per column. */
  function EmptyRow(c: Category): seq<Value>
  {
    Repeat(Null, |c.attributes|)
  }

  /** The first step of SetValue: rows of None are added until row `i`
      exists (nothing is added for a negative `i`). */
  function GrowRows(c: Category, i: int): (rows: seq<seq<Value>>)
    ensures |rows| == if i + 1 > |c.rows| then i + 1 else |c.rows|
    ensures rows[..|c.rows|] == c.rows
    ensures forall k :: |c.rows| <= k < |rows| ==> rows[k] == EmptyRow(c)
  {
    if i + 1 > |c.rows| then c.rows + Repeat(EmptyRow(c), i + 1 - |c.rows|) else c.rows
  }

  /** Stores a value in the named column of the row at a Python index, with
      the current attribute and current row as defaults. Rows are added up
      to the index; a row too short for the column is padded with None. An
      unknown column or an index before the first row leaves the grown row
      list and stores nothing: the error is reported on the log only. */
  function SetValue(c: Category, value: Value, attribute: Option<string>, rowIndex: Option<int>): (r: Category)
    ensures r.attributes == c.attributes && r.catalog == c.catalog
    ensures var a := if attribute.Some? then attribute else c.currentAttribute;
            var i := if rowIndex.Some? then rowIndex.value else c.currentRow;
            a.Some? ==> |r.rows| == |GrowRows(c, i)|
    ensures var a := if attribute.Some? then attribute else c.currentAttribute;
            var i := if rowIndex.Some? then rowIndex.value else c.currentRow;
            a.None? ==> r == c
    ensures r == c.(rows := r.rows)
    ensures var a := if attribute.Some? then attribute else c.currentAttribute;
            var i := if rowIndex.Some? then rowIndex.value else c.currentRow;
            a.Some? ==>
              forall k :: |c.rows| <= k < |r.rows| && PyIndex(i, |r.rows|) != Some(k) ==> r.rows[k] == EmptyRow(c)
    ensures var a := if attribute.Some? then attribute else c.currentAttribute;
            var i := if rowIndex.Some? then rowIndex.value else c.currentRow;
            a.Some? ==>
              forall k :: 0 <= k < |r.rows| && (a.value !in c.attributes || PyIndex(i, |r.rows|) != Some(k)) ==>
                r.rows[k] == GrowRows(c, i)[k]
    ensures var a := if attribute.Some? then attribute else c.currentAttribute;
            var i := if rowIndex.Some? then rowIndex.value else c.currentRow;
            a.Some? && a.value in c.attributes && PyIndex(i, |r.rows|).Some? ==>
              var k := PyIndex(i, |r.rows|).value;
              var ind := IndexOf(c.attributes, a.value).value;
              var g := GrowRows(c, i)[k];
              |r.rows[k]| == if ind < |g| then |g| else if ind == 0 then 1 else 2 * ind
    ensures var a := if attribute.Some? then attribute else c.currentAttribute;
            var i := if rowIndex.Some? then rowIndex.value else c.currentRow;
            a.Some? && a.value in c.attributes && 0 <= i + |r.rows| ==>
              GetValue(r, a, Some(i)) == Ok(value)
    ensures var a := if attribute.Some? then attribute else c.currentAttribute;
            var i := if rowIndex.Some? then rowIndex.value else c.currentRow;
            a.Some? && a.value in c.attributes && PyIndex(i, |r.rows|).Some? ==>
              var k := PyIndex(i, |r.rows|).value;
              var ind := IndexOf(c.attributes, a.value).value;
              var g := GrowRows(c, i)[k];
              forall j :: 0 <= j < |r.rows[k]| && j != ind ==> r.rows[k][j] == (if j < |g| then g[j] else Null)
  {
    var a := if attribute.Some? then attribute else c.currentAttribute;
    var i := if rowIndex.Some? then rowIndex.value else c.currentRow;
    if a.None? then c else StoreAt(c, value, a.value, i)
  }

  /** SetValue once the column name and the row index are known. */
  function StoreAt(c: Category, value: Value, a: string, i: int): (r: Category)
    ensures r == c.(rows := r.rows)
    ensures |r.rows| == |GrowRows(c, i)|
    ensures forall k :: 0 <= k < |r.rows| && (a !in c.attributes || PyIndex(i, |r.rows|) != Some(k)) ==>
              r.rows[k] == GrowRows(c, i)[k]
    ensures a in c.attributes && PyIndex(i, |r.rows|).Some? ==>
              var k := PyIndex(i, |r.rows|).value;
              var ind := IndexOf(c.attributes, a).value;
              var g := GrowRows(c, i)[k];
              |r.rows[k]| == if ind < |g| then |g| else if ind == 0 then 1 else 2 * ind
    ensures forall k :: |c.rows| <= k < |r.rows| && PyIndex(i, |r.rows|) != Some(k) ==> r.rows[k] == EmptyRow(c)
    ensures a in c.attributes && 0 <= i + |r.rows| ==> GetValue(r, Some(a), Some(i)) == Ok(value)
    ensures a in c.attributes && PyIndex(i, |r.rows|).Some? ==>
              var k := PyIndex(i, |r.rows|).value;
              var ind := IndexOf(c.attributes, a).value;
              var g := GrowRows(c, i)[k];
              forall j :: 0 <= j < |r.rows[k]| && j != ind ==> r.rows[k][j] == (if j < |g| then g[j] else Null)
  {
    var rows := GrowRows(c, i);
    match PyIndex(i, |rows|)
    case None => c.(rows := rows)
    case Some(k) =>
      match IndexOf(c.attributes, a)
      case None => c.(rows := rows)
      case Some(ind) =>
        c.(rows := rows[k := StoreCell(rows[k], ind, value)])
  }

  /** A row with `value` in column `ind`, padded with None first when the
      row is too short. */
  function StoreCell(row: seq<Value>, ind: nat, value: Value): (r: seq<Value>)
    ensures ind < |r| && r[ind] == value
    ensures |r| == if ind < |row| then |row| else if ind == 0 then 1 else 2 * ind
    ensures forall j :: 0 <= j < |row| && j != ind ==> r[j] == row[j]
    ensures forall j :: |row| <= j < |r| && j != ind ==> r[j] == Null
  {
    var longer := if ind >= |row| then row + Repeat(Null, Extension(ind, |row|)) else row;
    longer[ind := value]
  }

  /** How many cells of None make a row of length `ll` reach past column
      `ind`: the repository's `2 * ind - ll`, but never less than needed
      for column `ind` to exist. */
  function Extension(ind: nat, ll: nat): (n: nat)
    requires ind >= ll
    ensures ll + n > ind
  {
    if 2 * ind >= ind + 1 then 2 * ind - ll else ind + 1 - ll
  }

  /** SetValue changes no existing cell but the one it stores (it only adds
      rows and padding), also when the column is unknown or the index is
      before the first row and nothing is stored. */
  lemma {:induction false} SetValueFrame(c: Category, value: Value, a: string, i: int, k: nat, j: nat)
    requires k < |c.rows| && j < |c.rows[k]|
    requires a !in c.attributes || PyIndex(i, |GrowRows(c, i)|) != Some(k) || j != IndexOf(c.attributes, a).value
    ensures k < |SetValue(c, value, Some(a), Some(i)).rows|
    ensures j < |SetValue(c, value, Some(a), Some(i)).rows[k]|
    ensures SetValue(c, value, Some(a), Some(i)).rows[k][j] == c.rows[k][j]
  {
    var rows := GrowRows(c, i);
    assert rows[k] == c.rows[k];
  }

  /** SetValue as the repository writes it: a row shorter than the column
      index is extended by `2 * ind - ll` cells. For column 0 of an empty
      row that adds nothing, the store raises IndexError, and the value is
      dropped. */
  function SetValueAsWritten(c: Category, value: Value, attribute: Option<string>, rowIndex: Option<int>): (r: Category)
    ensures r.attributes == c.attributes && r.catalog == c.catalog
  {
    var a := if attribute.Some? then attribute else c.currentAttribute;
    var i := if rowIndex.Some? then rowIndex.value else c.currentRow;
    if a.None? then c
    else
      var rows := GrowRows(c, i);
      match PyIndex(i, |rows|)
      case None => c.(rows := rows)
      case Some(k) =>
        match IndexOf(c.attributes, a.value)
        case None => c.(rows := rows)
        case Some(ind) =>
          c.(rows := rows[k := StoreCellAsWritten(rows[k], ind, value)])
  }

  /** The store as written: the row is extended by `2 * ind - ll` cells,
      and a store that is still out of range changes nothing more. It
      agrees with StoreCell except on column 0 of an empty row. */
  function StoreCellAsWritten(row: seq<Value>, ind: nat, value: Value): (r: seq<Value>)
    ensures ind != 0 || row != [] ==> r == StoreCell(row, ind, value)
    ensures ind == 0 && row == [] ==> r == []
  {
    var longer := if ind >= |row| then row + Repeat(Null, 2 * ind - |row|) else row;
    if ind < |longer| then longer[ind := value] else longer
  }

  /** The discrepancy: a category with one column and one empty row.
      Storing "x" in that column of that row leaves the row empty, while the
      corrected SetValue stores it. */
  lemma SetValueAsWrittenDropsValue()
    ensures var c := NewCategory("cat", ["id"], [[]]);
            && SetValueAsWritten(c, Str("x"), Some("id"), Some(0)).rows == [[]]
            && GetValue(SetValueAsWritten(c, Str("x"), Some("id"), Some(0)), Some("id"), Some(0)) == Err(IndexError)
            && GetValue(SetValue(c, Str("x"), Some("id"), Some(0)), Some("id"), Some(0)) == Ok(Str("x"))
  {
    var c := NewCategory("cat", ["id"], [[]]);
    assert IndexOf(c.attributes, "id") == Some(0);
    assert GrowRows(c, 0) == [[]];
  }

  /** The two versions of SetValue differ only on column 0 of an empty
      row: storing into any other column, or into a category none of whose
      rows is empty, gives the same result. */
  lemma {:induction false} SetValueAsWrittenElsewhere(c: Category, value: Value, a: string, i: int)
    ensures IndexOf(c.attributes, a) != Some(0) ==>
              SetValueAsWritten(c, value, Some(a), Some(i)) == SetValue(c, value, Some(a), Some(i))
    ensures (forall k :: 0 <= k < |c.rows| ==> c.rows[k] != []) ==>
              SetValueAsWritten(c, value, Some(a), Some(i)) == SetValue(c, value, Some(a), Some(i))
  {
    var rows := GrowRows(c, i);
    if (forall k :: 0 <= k < |c.rows| ==> c.rows[k] != []) && IndexOf(c.attributes, a) == Some(0) {
      forall k | 0 <= k < |rows| ensures rows[k] != [] {
        if k >= |c.rows| {
          assert rows[k] == EmptyRow(c);
        } else {
          assert rows[k] == c.rows[k];
        }
      }
    }
  }

  /** The number of rows whose cell in column `ind` is `v`. */
  function MatchCount(rows: seq<seq<Value>>, ind: nat, v: Value): nat
    requires forall k :: 0 <= k < |rows| ==> ind < |rows[k]|
  {
    |set k | 0 <= k < |rows| && rows[k][ind] == v|
  }

  lemma {:induction false} MatchCountStep(rows: seq<seq<Value>>, ind: nat, v: Value)
    requires |rows| > 0 && forall k :: 0 <= k < |rows| ==> ind < |rows[k]|
    ensures MatchCount(rows, ind, v) ==
              MatchCount(rows[..|rows| - 1], ind, v) + if rows[|rows| - 1][ind] == v then 1 else 0
  {
    var n := |rows| - 1;
    var before := set k | 0 <= k < n && rows[..n][k][ind] == v;
    var after := set k | 0 <= k < |rows| && rows[k][ind] == v;
    assert after == before + (if rows[n][ind] == v then {n} else {});
    assert n !in before;
  }

  /** The cells of column `ind` equal to `oldValue` replaced by `newValue`,
      with the number of cells replaced. */
  function ReplaceInColumn(rows: seq<seq<Value>>, ind: nat, oldValue: Value, newValue: Value): (r: (seq<seq<Value>>, nat))
    requires forall k :: 0 <= k < |rows| ==> ind < |rows[k]|
    ensures |r.0| == |rows|
    ensures r.1 == MatchCount(rows, ind, oldValue)
    ensures forall k :: 0 <= k < |rows| ==>
              r.0[k] == rows[k][ind := if rows[k][ind] == oldValue then newValue else rows[k][ind]]
  {
    if |rows| == 0 then ([], 0)
    else
      var n := |rows| - 1;
      var init := ReplaceInColumn(rows[..n], ind, oldValue, newValue);
      var row := rows[n];
      var hit := row[ind] == oldValue;
      MatchCountStep(rows, ind, oldValue);
      (init.0 + [row[ind := if hit then newValue else row[ind]]], init.1 + if hit then 1 else 0)
  }

  /** Replaces `oldValue` by `newValue` in one column and returns the number
      of cells replaced. An unknown column gives 0 and changes nothing; a row too
      short for the column raises IndexError. */
  function ReplaceValue(c: Category, oldValue: Value, newValue: Value, attribute: string): (r: Result<(Category, nat)>)
    ensures attribute !in c.attributes ==> r == Ok((c, 0))
    ensures r.Err? ==> r.error == IndexError
    ensures r.Ok? ==> r.value.0 == c.(rows := r.value.0.rows)
    ensures attribute in c.attributes ==>
              var ind := IndexOf(c.attributes, attribute).value;
              (r.Err? <==> exists k :: 0 <= k < |c.rows| && |c.rows[k]| <= ind)
    ensures r.Ok? && attribute in c.attributes ==>
              var ind := IndexOf(c.attributes, attribute).value;
              var d := r.value.0;
              && d.attributes == c.attributes && d.catalog == c.catalog
              && |d.rows| == |c.rows|
              && r.value.1 == MatchCount(c.rows, ind, oldValue)
              && (forall k :: 0 <= k < |c.rows| ==> |d.rows[k]| == |c.rows[k]|)
              && (forall k, j :: 0 <= k < |c.rows| && 0 <= j < |c.rows[k]| && j != ind ==>
                                   d.rows[k][j] == c.rows[k][j])
              && (forall k :: 0 <= k < |c.rows| ==>
                                d.rows[k][ind] == if c.rows[k][ind] == oldValue then newValue else c.rows[k][ind])
              && (oldValue != newValue ==> forall k :: 0 <= k < |c.rows| ==> d.rows[k][ind] != oldValue)
  {
    match IndexOf(c.attributes, attribute)
    case None => Ok((c, 0))
    case Some(ind) =>
      if exists k :: 0 <= k < |c.rows| && |c.rows[k]| <= ind then Err(IndexError)
      else
        var (rows, n) := ReplaceInColumn(c.rows, ind, oldValue, newValue);
        Ok((c.(rows := rows), n))
  }

  /** Renames the first column spelled exactly `cur`. The catalog entry of
      the lower-cased old name is deleted and one for the new name added;
      when the old name has no catalog entry the list is already changed
      and KeyError escapes. An unknown name gives False and no change. */
  function RenameAttribute(c: Category, cur: string, newName: string): (r: Result<(Category, bool)>)
    ensures cur !in c.attributes ==> r == Ok((c, false))
    ensures r.Ok? ==> (r.value.1 <==> cur in c.attributes)
    ensures r.Err? ==> r.error == KeyError
    ensures r.Ok? ==> r.value.0 == c.(attributes := r.value.0.attributes, catalog := r.value.0.catalog)
    ensures cur in c.attributes ==> (r.Ok? <==> Lower(cur) in c.catalog)
    ensures r.Ok? && r.value.1 ==>
              var i := IndexOf(c.attributes, cur).value;
              var d := r.value.0;
              && d.attributes == c.attributes[i := newName]
              && d.catalog == (c.catalog - {Lower(cur)})[Lower(newName) := newName]
              && d.rows == c.rows && d.numAttributes == c.numAttributes
    ensures Coherent(c) && r.Ok? ==> Coherent(r.value.0)
  {
    match IndexOf(c.attributes, cur)
    case None => Ok((c, false))
    case Some(i) =>
      if Lower(cur) !in c.catalog then Err(KeyError)
      else
        var attrs := c.attributes[i := newName];
        var catalog := (c.catalog - {Lower(cur)})[Lower(newName) := newName];
        RenameCoherent(c, i, cur, newName);
        Ok((c.(attributes := attrs, catalog := catalog), true))
  }

  /** Renaming the column `cur` at position `i` and moving its catalog
      entry keeps the catalog coherent. */
  lemma {:induction false} RenameCoherent(c: Category, i: nat, cur: string, newName: string)
    requires i < |c.attributes| && c.attributes[i] == cur
    ensures Coherent(c) ==>
              Coherent(c.(attributes := c.attributes[i := newName],
                          catalog := (c.catalog - {Lower(cur)})[Lower(newName) := newName]))
  {
    var attrs := c.attributes[i := newName];
    var catalog := (c.catalog - {Lower(cur)})[Lower(newName) := newName];
    assert attrs[i] == newName;
    if Coherent(c) {
      forall k | k in catalog && k != Lower(newName) ensures catalog[k] in attrs {
        var j :| 0 <= j < |c.attributes| && c.attributes[j] == c.catalog[k];
        assert j != i;
        assert attrs[j] == c.catalog[k];
      }
    }
  }

  /** Renaming a column to a name not yet used keeps every cell reachable:
      a cell read under the new name is the one read under the old name. */
  lemma {:induction false} RenameAttributeKeepsValues(c: Category, cur: string, newName: string, i: int)
    requires cur in c.attributes && Lower(cur) in c.catalog && newName !in c.attributes
    ensures RenameAttribute(c, cur, newName).Ok?
    ensures GetValue(RenameAttribute(c, cur, newName).value.0, Some(newName), Some(i)) == GetValue(c, Some(cur), Some(i))
  {
    var j := IndexOf(c.attributes, cur).value;
    var d := RenameAttribute(c, cur, newName).value.0;
    assert d.attributes[j] == newName;
    assert newName !in d.attributes[..j] by {
      assert d.attributes[..j] == c.attributes[..j];
    }
    assert IndexOf(d.attributes, newName) == Some(j);
  }
}

=== FILE: format_type_list.dfy ===
/** The column summary used when a category is written: for each column,
    the widest data type of its cells over a sample of the rows, and the
    format type that data type calls for. */
module FormatTypeList {
  import opened Common
  import opened ValueFormat
  import opened DataCategory

  function Reverse<T>(s: seq<T>): (r: seq<T>)
    ensures |r| == |s|
    ensures forall j :: 0 <= j < |s| ==> r[j] == s[|s| - 1 - j]
  {
    seq(|s|, j requires 0 <= j < |s| => s[|s| - 1 - j])
  }

  /** One more step of `k`; kept apart so the stride proof stays free of
      nonlinear reasoning. */
  lemma MulSucc(j: nat, k: nat)
    ensures (j + 1) * k == j * k + k
  {
  }

  /** Putting the first element in front of the stride of what follows
      the first `k` elements gives the stride of the whole sequence. */
  lemma {:induction false} StrideCons<T>(s: seq<T>, k: nat, rest: seq<T>)
    requires 0 < k < |s|
    requires forall j :: 0 <= j < |rest| ==> j * k < |s| - k && rest[j] == s[k..][j * k]
    requires |rest| * k >= |s| - k
    ensures forall j :: 0 <= j < |rest| + 1 ==> j * k < |s| && ([s[0]] + rest)[j] == s[j * k]
    ensures (|rest| + 1) * k >= |s|
  {
    var r := [s[0]] + rest;
    forall j | 0 <= j < |r| ensures j * k < |s| && r[j] == s[j * k] {
      if j > 0 {
        MulSucc(j - 1, k);
        assert r[j] == rest[j - 1];
      }
    }
    MulSucc(|rest|, k);
  }

  /** `s[::k]` for k > 0: every k-th element, starting with the first. */
  function Stride<T>(s: seq<T>, k: nat): (r: seq<T>)
    requires k > 0
    ensures forall j :: 0 <= j < |r| ==> j * k < |s| && r[j] == s[j * k]
    ensures |r| * k >= |s|
  {
    if |s| == 0 then []
    else if k >= |s| then [s[0]]
    else
      var rest := Stride(s[k..], k);
      StrideCons(s, k, rest);
      [s[0]] + rest
  }

  lemma {:induction false} StrideIn<T>(s: seq<T>, k: nat)
    requires k > 0
    ensures forall x :: x in Stride(s, k) ==> x in s
  {
    if 0 < k < |s| {
      StrideIn(s[k..], k);
      assert forall x :: x in s[k..] ==> x in s;
    }
  }

  /** `s[::steps]` for a nonzero step; a negative step walks backwards from
      the last element. */
  function Sample<T>(s: seq<T>, steps: int): (r: seq<T>)
    requires steps != 0
    ensures forall x :: x in r ==> x in s
  {
    if steps > 0 then StrideIn(s, steps); Stride(s, steps)
    else
      var b := Reverse(s);
      assert forall x :: x in b ==> x in s;
      StrideIn(b, -steps);
      Stride(b, -steps)
  }

  /** A step of one samples every row, in order. */
  lemma {:induction false} SampleOne<T>(s: seq<T>)
    ensures Sample(s, 1) == s
  {
    var r := Sample(s, 1);
    assert |r| == |s|;
  }

  /** Every row has a cell in each of the first `n` columns. */
  ghost predicate Wide(rows: seq<seq<Value>>, n: nat)
  {
    forall k :: 0 <= k < |rows| ==> n <= |rows[k]|
  }

  /** The cell classifier of a category: DataTypePdbx with the category's
      quoting mode. */
  function CellType(avoidEmbeddedQuoting: bool): Value -> DataType
  {
    v => DataTypePdbx(v, avoidEmbeddedQuoting)
  }

  /** The cell classifier as the repository writes it. */
  function CellTypeAsWritten(avoidEmbeddedQuoting: bool): Value -> DataType
  {
    v => DataTypePdbxAsWritten(v, avoidEmbeddedQuoting)
  }

  /** The data type of column `j` over `rows`: the types `ty` gives its
      cells, combined by MaxType, starting from the null type. */
  function ColumnType(rows: seq<seq<Value>>, j: nat, ty: Value -> DataType): DataType
    requires Wide(rows, j + 1)
  {
    if |rows| == 0 then DtNullValue
    else MaxType(ColumnType(rows[..|rows| - 1], j, ty), ty(rows[|rows| - 1][j]))
  }

  /** A column's data type ranks at least as high as each of its cells' and
      is either the null type or the type of one of its cells. */
  lemma {:induction false} ColumnTypeIsMax(rows: seq<seq<Value>>, j: nat, ty: Value -> DataType)
    requires Wide(rows, j + 1)
    ensures forall k :: 0 <= k < |rows| ==> Rank(ty(rows[k][j])) <= Rank(ColumnType(rows, j, ty))
    ensures || ColumnType(rows, j, ty) == DtNullValue
            || exists k :: 0 <= k < |rows| && ColumnType(rows, j, ty) == ty(rows[k][j])
  {
    if |rows| > 0 {
      var init := rows[..|rows| - 1];
      ColumnTypeIsMax(init, j, ty);
      var t := ColumnType(init, j, ty);
      assert forall k :: 0 <= k < |init| ==> init[k] == rows[k];
      if t != DtNullValue && ColumnType(rows, j, ty) == t {
        var k :| 0 <= k < |init| && t == ty(init[k][j]);
        assert rows[k] == init[k];
      }
    }
  }

  /** Two classifiers that agree on every cell of a column give the column
      the same type. */
  lemma {:induction false} ColumnTypeCongruent(rows: seq<seq<Value>>, j: nat, ty: Value -> DataType, tz: Value -> DataType)
    requires Wide(rows, j + 1)
    requires forall k :: 0 <= k < |rows| ==> ty(rows[k][j]) == tz(rows[k][j])
    ensures ColumnType(rows, j, ty) == ColumnType(rows, j, tz)
  {
    if |rows| > 0 {
      var init := rows[..|rows| - 1];
      assert forall k :: 0 <= k < |init| ==> init[k] == rows[k];
      ColumnTypeCongruent(init, j, ty, tz);
    }
  }

  /** The corrected classifier and the one as written give a column the
      same type unless one of its cells is a string ending in a line break. */
  lemma {:induction false} ColumnTypeAsWrittenAgrees(rows: seq<seq<Value>>, j: nat, avoidEmbeddedQuoting: bool)
    requires Wide(rows, j + 1)
    requires forall k :: 0 <= k < |rows| ==> !(rows[k][j].Str? && EndsWithNewline(rows[k][j].s))
    ensures ColumnType(rows, j, CellTypeAsWritten(avoidEmbeddedQuoting)) ==
            ColumnType(rows, j, CellType(avoidEmbeddedQuoting))
  {
    ColumnTypeCongruent(rows, j, CellTypeAsWritten(avoidEmbeddedQuoting), CellType(avoidEmbeddedQuoting));
  }

  /** A column holding only "12\n" is an integer column as written and a
      text-field column once corrected. */
  lemma NumberWithNewlineColumn()
    ensures ColumnType([[Str("12\n")]], 0, CellTypeAsWritten(false)) == DtInteger
    ensures ColumnType([[Str("12\n")]], 0, CellType(false)) == DtMultiLineString
  {
    NumberWithNewlineClassifiedInteger();
    var rows := [[Str("12\n")]];
    assert rows[..0] == [];
  }

  /** The column types of the first `n` columns, row by row as the
      repository walks them; None when a row has fewer than `n` cells. */
  method ColumnTypes(rows: seq<seq<Value>>, n: nat, ty: Value -> DataType) returns (r: Option<seq<DataType>>)
    ensures r.Some? <==> Wide(rows, n)
    ensures r.Some? ==> |r.value| == n && forall j :: 0 <= j < n ==> r.value[j] == ColumnType(rows, j, ty)
  {
    var dts := seq(n, j => DtNullValue);
    var i := 0;
    while i < |rows|
      invariant 0 <= i <= |rows|
      invariant |dts| == n
      invariant Wide(rows[..i], n)
      invariant forall j :: 0 <= j < n ==> dts[j] == ColumnType(rows[..i], j, ty)
    {
      var row := rows[i];
      if |row| < n {
        return None;
      }
      assert rows[..i + 1][..i] == rows[..i];
      var j := 0;
      while j < n
        invariant 0 <= j <= n
        invariant |dts| == n
        invariant forall j' :: 0 <= j' < j ==> dts[j'] == ColumnType(rows[..i + 1], j', ty)
        invariant forall j' :: j <= j' < n ==> dts[j'] == ColumnType(rows[..i], j', ty)
      {
        dts := dts[j := MaxType(dts[j], ty(row[j]))];
        j := j + 1;
      }
      i := i + 1;
    }
    assert rows[..i] == rows;
    return Some(dts);
  }

  /** The data type and format type of every column. Each column's data
      type is the highest-ranked data type of its cells in the sampled rows,
      the null type when no row is sampled. A step of zero or a sampled row
      without a cell for every column makes the method fail. */
  method GetFormatTypeList(c: Category, steps: int) returns (r: Result<(seq<FormatType>, seq<DataType>)>)
    ensures steps == 0 ==> r.Err?
    ensures steps != 0 ==> (r.Ok? <==> Wide(Sample(c.rows, steps), |c.attributes|))
    ensures r.Ok? ==>
              && steps != 0
              && var rows := Sample(c.rows, steps);
                 var ty := CellType(c.avoidEmbeddedQuoting);
                 var fts := r.value.0;
                 var dts := r.value.1;
                 && |dts| == |c.attributes| && |fts| == |dts|
                 && (forall j :: 0 <= j < |dts| ==> fts[j] == FormatTypeOf(dts[j]))
                 && (forall j :: 0 <= j < |dts| ==> dts[j] == ColumnType(rows, j, ty))
                 && (forall j, k :: 0 <= j < |dts| && 0 <= k < |rows| ==> Rank(ty(rows[k][j])) <= Rank(dts[j]))
                 && (forall j :: 0 <= j < |dts| ==>
                                   dts[j] == DtNullValue || exists k :: 0 <= k < |rows| && dts[j] == ty(rows[k][j]))
  {
    if steps == 0 {
      return Err(UnboundLocalError);
    }
    var rows := Sample(c.rows, steps);
    var ty := CellType(c.avoidEmbeddedQuoting);
    var n := |c.attributes|;
    var dts := ColumnTypes(rows, n, ty);
    if dts.None? {
      return Err(UnboundLocalError);
    }
    forall j | 0 <= j < n {
      ColumnTypeIsMax(rows, j, ty);
    }
    var fts := seq(n, j requires 0 <= j < n => FormatTypeOf(dts.value[j]));
    return Ok((fts, dts.value));
  }
}

=== FILE: value_format.dfy ===
/** How a PDBx data category writes one cell value: the choice between a
    bare token, a double- or single-quoted string and a semicolon text field,
    and the data type reported with it. A cell holds None, a string or an
    int. */
module ValueFormat {
  import opened Common
  import opened CifLexical

  datatype Value = Null | Str(s: string) | Int(n: int)

  /** The data types, in the fixed order used when a column's type is the
      largest of its cells' types. */
  datatype DataType =
    | DtNullValue
    | DtInteger
    | DtFloat
    | DtUnquotedString
    | DtItemName
    | DtDoubleQuotedString
    | DtSingleQuotedString
    | DtMultiLineString

  datatype FormatType = FtNullValue | FtNumber | FtUnquotedString | FtQuotedString | FtMultiLineString

  /** The position of a data type in the fixed order. */
  function Rank(d: DataType): nat
  {
    match d
    case DtNullValue => 0
    case DtInteger => 1
    case DtFloat => 2
    case DtUnquotedString => 3
    case DtItemName => 4
    case DtDoubleQuotedString => 5
    case DtSingleQuotedString => 6
    case DtMultiLineString => 7
  }

  /** The later of two data types in the fixed order. */
  function MaxType(a: DataType, b: DataType): (r: DataType)
    ensures Rank(a) <= Rank(r) && Rank(b) <= Rank(r)
    ensures r == a || r == b
  {
    if Rank(a) >= Rank(b) then a else b
  }

  /** The format type listed in parallel with each data type. */
  function FormatTypeOf(d: DataType): FormatType
  {
    match d
    case DtNullValue => FtNullValue
    case DtInteger => FtNumber
    case DtFloat => FtNumber
    case DtUnquotedString => FtUnquotedString
    case DtItemName => FtQuotedString
    case DtDoubleQuotedString => FtQuotedString
    case DtSingleQuotedString => FtQuotedString
    case DtMultiLineString => FtMultiLineString
  }

  /** The data types written as a single bare token. */
  predicate IsBare(d: DataType)
  {
    d == DtNullValue || d == DtInteger || d == DtFloat || d == DtUnquotedString
  }

  /** `"".join(parts)` */
  function Join(parts: seq<string>): string
  {
    if |parts| == 0 then "" else parts[0] + Join(parts[1..])
  }

  lemma {:induction false} Join1(a: string)
    ensures Join([a]) == a
  {
    assert [a][1..] == [];
  }

  lemma {:induction false} Join3(a: string, b: string, c: string)
    ensures Join([a, b, c]) == a + b + c
  {
    Join1(c);
    assert [a, b, c][1..] == [b, c];
    assert [b, c][1..] == [c];
    assert Join([b, c]) == b + c;
  }

  lemma {:induction false} Join5(a: string, b: string, c: string, d: string, e: string)
    ensures Join([a, b, c, d, e]) == a + b + c + d + e
  {
    assert [a, b, c, d, e][1..] == [b, c, d, e];
    Join3(c, d, e);
    assert [b, c, d, e][1..] == [c, d, e];
  }

  lemma {:induction false} Join6(a: string, b: string, c: string, d: string, e: string, f: string)
    ensures Join([a, b, c, d, e, f]) == a + b + c + d + e + f
  {
    assert [a, b, c, d, e, f][1..] == [b, c, d, e, f];
    Join5(b, c, d, e, f);
  }

  predicate EndsWithNewline(s: string)
  {
    |s| > 0 && s[|s| - 1] == '\n'
  }

  /** `s` without its final "\n", if it has one. */
  function TrimNewline(s: string): (r: string)
    ensures EndsWithNewline(s) ==> s == r + "\n"
    ensures !EndsWithNewline(s) ==> r == s
  {
    if EndsWithNewline(s) then s[..|s| - 1] else s
  }

  /** A line starting with ";" begins inside `s`: the sequence "\n;". */
  predicate HasTextFieldEnd(s: string)
  {
    exists i :: 0 <= i < |s| - 1 && s[i] == '\n' && s[i + 1] == ';'
  }

  // ---------------------------------------------------------------------
  // A reader for one value token, the partner of the formatter.
  // ---------------------------------------------------------------------

  /** The part of `s` before the first `c`, or all of `s`. */
  function TakeUntil(s: string, c: char): (r: string)
    ensures |r| <= |s| && r == s[..|r|] && c !in r
    ensures |r| < |s| ==> s[|r|] == c
  {
    match IndexOf(s, c)
    case None => s
    case Some(i) => s[..i]
  }

  /** The part of `s` before the first whitespace, or all of `s`. */
  function TakeUntilSpace(s: string): (r: string)
    ensures |r| <= |s| && r == s[..|r|] && !HasSpace(r)
    ensures |r| < |s| ==> IsSpace(s[|r|])
  {
    if |s| == 0 || IsSpace(s[0]) then ""
    else
      var rest := TakeUntilSpace(s[1..]);
      assert [s[0]] + rest == s[..|rest| + 1];
      [s[0]] + rest
  }

  /** The part of `s` before the first "\n;", or all of `s`. */
  function TakeUntilTextFieldEnd(s: string): (r: string)
    ensures |r| <= |s| && r == s[..|r|]
    ensures !HasTextFieldEnd(r)
    ensures |r| < |s| ==> |r| + 1 < |s| && s[|r|] == '\n' && s[|r| + 1] == ';'
  {
    if |s| < 2 then s
    else if s[0] == '\n' && s[1] == ';' then ""
    else
      var rest := TakeUntilTextFieldEnd(s[1..]);
      assert [s[0]] + rest == s[..|rest| + 1];
      [s[0]] + rest
  }

  /** Reads one value back from written text: a text field runs from the ";"
      that opens a line up to the next line that starts with ";" (the line
      break before it is not part of the value); a quoted string runs to the
      next matching quote; a bare token runs to the next whitespace. */
  function ReadToken(t: string): string
  {
    if |t| >= 2 && t[0] == '\n' && t[1] == ';' then TakeUntilTextFieldEnd(t[2..])
    else if |t| >= 1 && IsQuote(t[0]) then TakeUntil(t[1..], t[0])
    else TakeUntilSpace(t)
  }

  // ---------------------------------------------------------------------
  // The quoting forms.
  // ---------------------------------------------------------------------

  /** A value between two quotes `q` reads back whole when it has no `q`
      of its own. */
  lemma {:induction false} QuotedReadBack(s: string, q: char)
    requires IsQuote(q)
    ensures q !in s ==> ReadToken([q] + s + [q]) == s
  {
    if q !in s {
      var t := [q] + s + [q];
      assert t[1..] == s + [q];
      var r := TakeUntil(s + [q], q);
      assert r == (s + [q])[..|s|] == s;
    }
  }

  /** The value between two quote characters `q`: the single- and the
      double-quoted list. QuotedReadBack reads it back. */
  function Quoted(s: string, q: char): (r: seq<string>)
    requires IsQuote(q)
    ensures Join(r) == [q] + s + [q]
  {
    Join3([q], s, [q]);
    [[q], s, [q]]
  }

  /** A semicolon text field: it opens with "\n;" and closes with a line
      holding only ";". A final "\n" of the value serves as the line break
      before the closing ";". Read back, the field gives the value without
      that final "\n", provided no line inside the value starts with ";". */
  function SemicolonQuoted(s: string): (r: seq<string>)
    requires |s| > 0
    ensures Join(r) == "\n;" + TrimNewline(s) + "\n;\n"
    ensures !HasTextFieldEnd(s) ==> ReadToken(Join(r)) == TrimNewline(s)
  {
    TextFieldReadBack(s);
    if s[|s| - 1] == '\n' then
      Join5("\n", ";", s, ";", "\n");
      ["\n", ";", s, ";", "\n"]
    else
      Join6("\n", ";", s, "\n", ";", "\n");
      ["\n", ";", s, "\n", ";", "\n"]
  }

  /** A text field whose content has no line starting with ";" ends right
      after that content. */
  lemma {:induction false} TextFieldEndsAfter(u: string, x: string)
    requires !HasTextFieldEnd(u)
    ensures TakeUntilTextFieldEnd(u + "\n;" + x) == u
    decreases |u|
  {
    var w := u + "\n;" + x;
    if |u| > 0 {
      assert w[0] == u[0];
      if |u| >= 2 {
        assert w[1] == u[1];
      } else {
        assert w[1] == '\n';
      }
      assert !HasTextFieldEnd(u[1..]);
      TextFieldEndsAfter(u[1..], x);
      assert w[1..] == u[1..] + "\n;" + x;
      assert [w[0]] + u[1..] == u;
    }
  }

  lemma {:induction false} TextFieldReadBack(s: string)
    ensures !HasTextFieldEnd(s) ==>
              ReadToken("\n;" + TrimNewline(s) + "\n;\n") == TrimNewline(s)
  {
    if !HasTextFieldEnd(s) {
      var u := TrimNewline(s);
      var t := "\n;" + u + "\n;\n";
      assert t[2..] == u + "\n;" + "\n";
      assert !HasTextFieldEnd(u);
      TextFieldEndsAfter(u, "\n");
    }
  }

  // ---------------------------------------------------------------------
  // The formatter.
  // ---------------------------------------------------------------------

  /** A string without whitespace has no line break in it. */
  lemma {:induction false} NoSpaceNoNewline(s: string)
    requires !HasSpace(s)
    ensures !HasNewline(s) && !EndsWithNewline(s) && !HasTextFieldEnd(s)
  {
  }

  /** A string without a line break neither ends with one nor has a line
      starting with ";". */
  lemma {:induction false} NoNewlineNoTextFieldEnd(s: string)
    requires !HasNewline(s)
    ensures !EndsWithNewline(s) && !HasTextFieldEnd(s)
  {
    assert !EndsWithNewline(s) by {
      if |s| > 0 {
        assert !IsNewline(s[|s| - 1]);
      }
    }
  }

  /** A non-empty string without whitespace or quotes is written bare,
      unless it starts with "_" and would read as a data name: then it is
      double-quoted. */
  function PlainText(s: string): (r: (seq<string>, DataType))
    requires s != "" && !HasSpaceOrQuote(s)
    ensures r.1 == DtItemName || r.1 == DtUnquotedString
    ensures r.1 == DtUnquotedString ==> Join(r.0) == s
    ensures r.1 == DtItemName ==> s[0] == '_' && '"' !in s && Join(r.0) == "\"" + s + "\""
    ensures !HasNewline(s)
  {
    NoSpaceNoNewline(s);
    if s[0] == '_' then (Quoted(s, '"'), DtItemName)
    else Join1(s); ([s], DtUnquotedString)
  }

  /** The choice of quotes for a one-line string with whitespace or quotes:
      double quotes, else single quotes, else a text field. When embedded
      quoting is avoided, a quote character may also not sit next to
      whitespace inside the string. */
  function QuoteText(s: string, avoidEmbeddedQuoting: bool): (r: (seq<string>, DataType))
    requires HasSpaceOrQuote(s) && !HasNewline(s)
    ensures r.1 == DtDoubleQuotedString || r.1 == DtSingleQuotedString || r.1 == DtMultiLineString
    ensures r.1 == DtDoubleQuotedString ==> '"' !in s && Join(r.0) == "\"" + s + "\""
    ensures r.1 == DtSingleQuotedString ==> '\'' !in s && Join(r.0) == "'" + s + "'"
    ensures r.1 == DtMultiLineString ==> Join(r.0) == "\n;" + TrimNewline(s) + "\n;\n"
  {
    if avoidEmbeddedQuoting then
      if '"' !in s && !QuoteNextToSpace(s, '\'') then (Quoted(s, '"'), DtDoubleQuotedString)
      else if '\'' !in s && !QuoteNextToSpace(s, '"') then (Quoted(s, '\''), DtSingleQuotedString)
      else (SemicolonQuoted(s), DtMultiLineString)
    else
      if '"' !in s then (Quoted(s, '"'), DtDoubleQuotedString)
      else if '\'' !in s then (Quoted(s, '\''), DtSingleQuotedString)
      else (SemicolonQuoted(s), DtMultiLineString)
  }

  /** The quoting rules for a string that is neither an integer nor a float
      token: the null markers, bare tokens, item names, text fields and the
      two quoted forms, in the formatter's order. */
  function FormatText(s: string, avoidEmbeddedQuoting: bool): (r: (seq<string>, DataType))
    requires !IsIntToken(s) && !IsFloatToken(s)
    ensures IsBare(r.1) ==> Join(r.0) == (if s == "" then "." else s) && !HasSpaceOrQuote(s)
    ensures r.1 == DtItemName || r.1 == DtDoubleQuotedString ==>
              s != "" && '"' !in s && !HasNewline(s) && Join(r.0) == "\"" + s + "\""
    ensures r.1 == DtSingleQuotedString ==>
              s != "" && '\'' !in s && !HasNewline(s) && Join(r.0) == "'" + s + "'"
    ensures r.1 == DtMultiLineString ==>
              HasSpaceOrQuote(s) && Join(r.0) == "\n;" + TrimNewline(s) + "\n;\n"
    ensures r.1 != DtMultiLineString ==> !HasNewline(s)
  {
    if s == "." || s == "?" then Join1(s); ([s], DtNullValue)
    else if s == "" then Join1("."); (["."], DtNullValue)
    else if !HasSpaceOrQuote(s) then PlainText(s)
    else if HasNewline(s) then (SemicolonQuoted(s), DtMultiLineString)
    else QuoteText(s, avoidEmbeddedQuoting)
  }

  /** Formats one value and reports its data type, recognising integer and
      float tokens by a match of the whole string. A bare data type is
      written as one non-empty token without whitespace or quotes; every
      quoted form holds the string verbatim between its delimiters and the
      string never contains the closing delimiter. */
  function FormatPdbx(v: Value, avoidEmbeddedQuoting: bool): (r: (seq<string>, DataType))
    ensures v.Null? ==> Join(r.0) == "?" && r.1 == DtNullValue
    ensures v.Int? ==> r == ([IntToString(v.n)], DtInteger)
    ensures v == Str("") ==> Join(r.0) == "." && r.1 == DtNullValue
    ensures IsBare(r.1) ==> |Join(r.0)| > 0 && !HasSpaceOrQuote(Join(r.0))
    ensures IsBare(r.1) && v.Str? && v.s != "" ==> Join(r.0) == v.s
    ensures r.1 == DtItemName || r.1 == DtDoubleQuotedString ==>
              v.Str? && '"' !in v.s && Join(r.0) == "\"" + v.s + "\""
    ensures r.1 == DtSingleQuotedString ==>
              v.Str? && '\'' !in v.s && Join(r.0) == "'" + v.s + "'"
    ensures r.1 == DtMultiLineString ==>
              v.Str? && HasSpaceOrQuote(v.s) && Join(r.0) == "\n;" + TrimNewline(v.s) + "\n;\n"
  {
    match v
    case Null => Join1("?"); (["?"], DtNullValue)
    case Int(n) => Join1(IntToString(n)); IntStringPlain(n); ([IntToString(n)], DtInteger)
    case Str(s) =>
      if IsIntToken(s) then Join1(s); NumberTokenPlain(s); ([s], DtInteger)
      else if IsFloatToken(s) then Join1(s); NumberTokenPlain(s); ([s], DtFloat)
      else FormatText(s, avoidEmbeddedQuoting)
  }

  /** The formatted text of a value. */
  function Render(v: Value, avoidEmbeddedQuoting: bool): string
  {
    Join(FormatPdbx(v, avoidEmbeddedQuoting).0)
  }

  /** An int is written bare as `str(n)`, and reading that token back
      gives the sign and the digits of `n`. */
  lemma {:induction false} ReadBackInt(n: int, avoidEmbeddedQuoting: bool)
    ensures var t := ReadToken(Render(Int(n), avoidEmbeddedQuoting));
            && t == IntToString(n)
            && (n >= 0 ==> IsIntToken(t) && DigitsValue(t) == n)
            && (n < 0 ==> |t| > 1 && t[0] == '-' && IsIntToken(t[1..]) && DigitsValue(t[1..]) == -n)
  {
    var w := IntToString(n);
    IntStringPlain(n);
    Join1(w);
    assert Render(Int(n), avoidEmbeddedQuoting) == w;
    assert TakeUntilSpace(w) == w;
    IntToStringValue(n);
  }

  /** The order in which the formatter decides on a string: numbers and the
      null markers first, then a bare token (double-quoted when it starts
      with "_"), then a text field for anything with a line break, and in
      the default mode double quotes, else single quotes, else a text
      field. */
  lemma {:induction false} FormatDecisionOrder(s: string, avoidEmbeddedQuoting: bool)
    ensures IsIntToken(s) ==> FormatPdbx(Str(s), avoidEmbeddedQuoting) == ([s], DtInteger)
    ensures !IsIntToken(s) && IsFloatToken(s) ==> FormatPdbx(Str(s), avoidEmbeddedQuoting) == ([s], DtFloat)
    ensures s == "." || s == "?" ==> FormatPdbx(Str(s), avoidEmbeddedQuoting) == ([s], DtNullValue)
    ensures !IsIntToken(s) && !IsFloatToken(s) && s != "." && s != "?" && s != "" && !HasSpaceOrQuote(s) ==>
              FormatPdbx(Str(s), avoidEmbeddedQuoting) ==
                (if s[0] == '_' then (["\"", s, "\""], DtItemName) else ([s], DtUnquotedString))
    ensures HasNewline(s) ==>
              FormatPdbx(Str(s), avoidEmbeddedQuoting).1 == DtMultiLineString &&
              "\n;" <= Render(Str(s), avoidEmbeddedQuoting)
    ensures HasSpaceOrQuote(s) && !HasNewline(s) && !avoidEmbeddedQuoting ==>
              FormatPdbx(Str(s), avoidEmbeddedQuoting).1 ==
                (if '"' !in s then DtDoubleQuotedString
                 else if '\'' !in s then DtSingleQuotedString
                 else DtMultiLineString)
  {
    if IsIntToken(s) || IsFloatToken(s) {
      NumberTokenPlain(s);
    }
  }

  /** A text field's content ends no later than the first line inside it
      that starts with ";". */
  lemma {:induction false} TextFieldEndBound(w: string, i: nat)
    requires i + 1 < |w| && w[i] == '\n' && w[i + 1] == ';'
    ensures |TakeUntilTextFieldEnd(w)| <= i
  {
  }

  /** Read back, the formatted text of a string gives exactly that string
      if and only if the string is non-empty, does not end with a line break
      and has no line starting with ";". Otherwise the empty string reads as
      ".", and a text field drops a final line break or stops at the first
      inner line that starts with ";". */
  lemma {:induction false} ReadBackExactly(s: string, avoidEmbeddedQuoting: bool)
    ensures ReadToken(Render(Str(s), avoidEmbeddedQuoting)) == s <==>
              s != "" && !EndsWithNewline(s) && !HasTextFieldEnd(s)
  {
    var d := FormatPdbx(Str(s), avoidEmbeddedQuoting).1;
    if IsBare(d) {
      ReadBackBare(s, avoidEmbeddedQuoting);
    } else if d == DtMultiLineString {
      assert Render(Str(s), avoidEmbeddedQuoting) == "\n;" + TrimNewline(s) + "\n;\n";
      TextFieldExact(s);
    } else {
      ReadBackQuoted(s, avoidEmbeddedQuoting);
    }
  }

  lemma {:induction false} ReadBackBare(s: string, avoidEmbeddedQuoting: bool)
    requires IsBare(FormatPdbx(Str(s), avoidEmbeddedQuoting).1)
    ensures ReadToken(Render(Str(s), avoidEmbeddedQuoting)) == s <==>
              s != "" && !EndsWithNewline(s) && !HasTextFieldEnd(s)
  {
    var t := Render(Str(s), avoidEmbeddedQuoting);
    assert !HasSpace(t);
    assert TakeUntilSpace(t) == t;
    assert ReadToken(t) == t;
    if s != "" {
      assert t == s;
      NoSpaceNoNewline(s);
    }
  }

  lemma {:induction false} ReadBackQuoted(s: string, avoidEmbeddedQuoting: bool)
    requires var d := FormatPdbx(Str(s), avoidEmbeddedQuoting).1;
             d == DtItemName || d == DtDoubleQuotedString || d == DtSingleQuotedString
    ensures ReadToken(Render(Str(s), avoidEmbeddedQuoting)) == s
    ensures s != "" && !EndsWithNewline(s) && !HasTextFieldEnd(s)
  {
    var d := FormatPdbx(Str(s), avoidEmbeddedQuoting).1;
    assert !IsIntToken(s) && !IsFloatToken(s);
    var f := FormatText(s, avoidEmbeddedQuoting);
    assert f == FormatPdbx(Str(s), avoidEmbeddedQuoting);
    if d == DtSingleQuotedString {
      QuotedReadBack(s, '\'');
    } else {
      QuotedReadBack(s, '"');
    }
    NoNewlineNoTextFieldEnd(s);
  }

  /** Read back, the text field of a non-empty string gives that string
      exactly when it neither ends with a line break nor has a line starting
      with ";". */
  lemma {:induction false} TextFieldExact(s: string)
    requires s != ""
    ensures ReadToken("\n;" + TrimNewline(s) + "\n;\n") == s <==>
              !EndsWithNewline(s) && !HasTextFieldEnd(s)
  {
    var u := TrimNewline(s);
    var t := "\n;" + u + "\n;\n";
    assert t[2..] == u + "\n;\n";
    if HasTextFieldEnd(s) {
      var i :| 0 <= i < |s| - 1 && s[i] == '\n' && s[i + 1] == ';';
      assert u[i] == '\n' && u[i + 1] == ';';
      TextFieldEndBound(u + "\n;\n", i);
    } else {
      TextFieldReadBack(s);
    }
  }

  /** The data type of the text of a string, as the category computes it
      for a column. */
  function TextDataType(s: string, avoidEmbeddedQuoting: bool): (r: DataType)
  {
    if s == "." || s == "?" || s == "" then DtNullValue
    else if !HasSpaceOrQuote(s) then
      if s[0] == '_' then DtItemName else DtUnquotedString
    else if HasNewline(s) then DtMultiLineString
    else if avoidEmbeddedQuoting then
      if '\'' !in s && !QuoteNextToSpace(s, '"') then DtDoubleQuotedString
      else if '"' !in s && !QuoteNextToSpace(s, '\'') then DtSingleQuotedString
      else DtMultiLineString
    else
      if '\'' !in s then DtDoubleQuotedString
      else if '"' !in s then DtSingleQuotedString
      else DtMultiLineString
  }

  /** On a string that is not a number, the column data type and the
      formatter agree except that one may say double-quoted where the
      other says single-quoted. */
  lemma {:induction false} TextDataTypeAgrees(s: string, avoidEmbeddedQuoting: bool)
    requires !IsIntToken(s) && !IsFloatToken(s)
    ensures var d := FormatText(s, avoidEmbeddedQuoting).1;
            var e := TextDataType(s, avoidEmbeddedQuoting);
            e == d || ((e == DtDoubleQuotedString || e == DtSingleQuotedString) &&
                       (d == DtDoubleQuotedString || d == DtSingleQuotedString))
  {
  }

  /** The data type alone: the same tests as FormatPdbx, except that in the
      quoted case the two quote characters are looked for in the other order.
      The two then may disagree between double- and single-quoted, but they
      agree on everything else and always on the format type. */
  function DataTypePdbx(v: Value, avoidEmbeddedQuoting: bool): (r: DataType)
    ensures r == FormatPdbx(v, avoidEmbeddedQuoting).1 ||
            ((r == DtDoubleQuotedString || r == DtSingleQuotedString) &&
             (FormatPdbx(v, avoidEmbeddedQuoting).1 == DtDoubleQuotedString ||
              FormatPdbx(v, avoidEmbeddedQuoting).1 == DtSingleQuotedString))
    ensures FormatTypeOf(r) == FormatTypeOf(FormatPdbx(v, avoidEmbeddedQuoting).1)
  {
    match v
    case Null => DtNullValue
    case Int(_) => DtInteger
    case Str(s) =>
      if IsIntToken(s) then DtInteger
      else if IsFloatToken(s) then DtFloat
      else
        TextDataTypeAgrees(s, avoidEmbeddedQuoting);
        assert FormatPdbx(v, avoidEmbeddedQuoting) == FormatText(s, avoidEmbeddedQuoting);
        TextDataType(s, avoidEmbeddedQuoting)
  }

  /** Python's `re.search` of `^[0-9]+$` and of the float pattern, as the
      formatter calls them: each also accepts the token followed by one
      "\n". */
  predicate SearchInt(s: string)
  {
    SearchAnchored(s, IsIntToken)
  }

  predicate SearchFloat(s: string)
  {
    SearchAnchored(s, IsFloatToken)
  }

  /** The formatter as the repository writes it, with numbers recognised by
      `re.search`: a number followed by one line break is still written as
      a bare token. */
  function FormatPdbxAsWritten(v: Value, avoidEmbeddedQuoting: bool): (r: (seq<string>, DataType))
    ensures !(v.Str? && EndsWithNewline(v.s)) ==> r == FormatPdbx(v, avoidEmbeddedQuoting)
  {
    match v
    case Str(s) =>
      if SearchInt(s) then ([s], DtInteger)
      else if SearchFloat(s) then ([s], DtFloat)
      else FormatText(s, avoidEmbeddedQuoting)
    case _ => FormatPdbx(v, avoidEmbeddedQuoting)
  }

  /** The data type alone as the repository writes it, with the same
      `re.search` number tests as the formatter as written. */
  function DataTypePdbxAsWritten(v: Value, avoidEmbeddedQuoting: bool): (r: DataType)
    ensures !(v.Str? && EndsWithNewline(v.s)) ==> r == DataTypePdbx(v, avoidEmbeddedQuoting)
    ensures FormatTypeOf(r) == FormatTypeOf(FormatPdbxAsWritten(v, avoidEmbeddedQuoting).1)
  {
    match v
    case Str(s) =>
      if SearchInt(s) then DtInteger
      else if SearchFloat(s) then DtFloat
      else DataTypePdbx(v, avoidEmbeddedQuoting)
    case _ => DataTypePdbx(v, avoidEmbeddedQuoting)
  }

  /** The discrepancy: "12\n" is reported as an integer and written bare,
      line break included, so the written token is not a single token and
      reads back as "12". The corrected formatter writes it as a text field. */
  lemma NumberWithNewlineWrittenBare()
    ensures FormatPdbxAsWritten(Str("12\n"), false) == (["12\n"], DtInteger)
    ensures HasSpaceOrQuote(Join(FormatPdbxAsWritten(Str("12\n"), false).0))
    ensures ReadToken(Join(FormatPdbxAsWritten(Str("12\n"), false).0)) == "12"
    ensures FormatPdbx(Str("12\n"), false).1 == DtMultiLineString
  {
    var s := "12\n";
    assert IsIntToken(s[..2]);
    assert !IsIntToken(s) by { assert !IsDigit(s[2]); }
    assert IsSpace(s[2]);
    Join1(s);
    assert TakeUntilSpace(s) == "12" by {
      var b := TakeUntilSpace(s);
      assert IsDigit(s[0]) && IsDigit(s[1]);
    }
    assert !IsFloatToken(s);
    assert HasNewline(s) by { assert IsNewline(s[2]); }
  }

  /** The same discrepancy in the classifier: as written it types "12\n" as
      an integer, where the corrected one types it as a text field, as the
      corrected formatter writes it. */
  lemma NumberWithNewlineClassifiedInteger()
    ensures DataTypePdbxAsWritten(Str("12\n"), false) == DtInteger
    ensures DataTypePdbx(Str("12\n"), false) == DtMultiLineString
  {
    NumberWithNewlineWrittenBare();
    assert SearchInt("12\n") by { assert IsIntToken("12\n"[..2]); }
  }
}
